=== FILE: README.md ===
# albumentations `transforms_interface` in Dafny

This project models the core of albumentations' single-transform contract, from
`albumentations/core/transforms_interface.py`. It covers three parts:

- **`to_tuple`**, the range normaliser. It turns a scalar, a 2-sequence or `None`
  into a `(low, high)` pair. An optional anchor `low` or an additive `bias` can be
  given, but not both.
- **The annotation batches** `BBoxesInternalType` and `KeypointsInternalType`. Each
  is an N-row numeric array (`array`, called `records` in the model) paired with an
  N-row metadata array (`targets`). The model covers the format check,
  construction with synthesised metadata, `__len__`, `__eq__`, `__getitem__` and
  `__setitem__`.
- **The dispatch machinery of `BasicTransform`**. This is `__call__`: replay,
  the fire decision, `targets_as_params` merging and deterministic recording. It
  also covers `apply_with_params` and `update_params`, the alias resolution of
  `_get_target_function`, `set_deterministic` and `add_targets`. Finally it
  includes the target tables and per-target apply functions of `DualTransform`,
  `ImageOnlyTransform`, `NoOp` and `ReferenceBasedTransform`.

Modules:

| file | module | models |
|---|---|---|
| `results.dfy` | `Results` | the Python exception classes raised, `Option`, `Result` |
| `ranges.dfy` | `Ranges` | `to_tuple` |
| `batches.dfy` | `Batches` | `BatchInternalType`, `Floats4Internal`, the two concrete batch classes, numpy indexing and broadcast assignment |
| `data.dfy` | `Data` | the values of a call: data items, parameter dictionaries, the replay store, and keyword data as an ordered list |
| `targets.dfy` | `Targets` | the `targets` tables, `_get_target_function`, `apply_to_mask(s)`, `apply_to_bboxes`/`apply_to_keypoints`, NoOp |
| `transforms.dfy` | `Transforms` | the instance state, `__init__`, `set_deterministic`, `add_targets`, `update_params`, `apply_with_params`, `__call__` |
| `call_properties.dfy` | `CallProperties` | lemmas that relate several calls or several data items |

Parameters stand in for everything the core calls but does not define:

- the random draw (`random.random()`);
- the result of `get_params()`;
- the instance identity (`id(self)`);
- the concrete transform's kernels. These are `apply`, `apply_to_bbox`,
  `apply_to_keypoint`, `apply_to_global_label` and
  `get_params_dependent_on_targets`, each given as an optional function. `None`
  means the class does not override the method.

Methods that mutate an object in place become functions that return the new value.
This covers `bboxes.array[i] = …`, `kwargs[save_key][id] = …` and `update_params`
writing into `self.params`. The caller's replay store is a data item of the call, a
`Dict` value keyed by strings and ints, so what was recorded appears in the returned
data.

In these places the model follows the code, which differs from what the names or docstrings suggest:

- `add_targets` replaces the alias map; it does not merge into it (line 329).
- The replay branch never sets `applied_in_replay`. Recording only writes into
  the store (line 255). `Call`'s contract states that no flag changes.
- `to_tuple` ignores `low` when `param` is a 2-sequence. The pair is returned
  as given, without being reordered against the anchor (lines 199-202).
- `ReferenceBasedTransform`'s table has no `"masks"` entry (lines 443-450).
- `apply_to_mask` only replaces an `"interpolation"` entry that is already
  present. It never adds one (line 408).
- Constructing a batch from a plain list raises `TypeError`. The format check in
  `__setattr__` runs when the dataclass `__init__` assigns `array`, which
  happens before `__post_init__` would convert the list (lines 75-78, 136-137).
- `__setitem__` writes the array and then the metadata. It does no format or
  count validation. Only numpy's own index and broadcast errors apply
  (lines 125-127).
- `update_params` reads `kwargs["image"]` on every firing call. A missing image
  raises `KeyError`; a value without `.shape` raises `AttributeError`; an image
  with fewer than two dimensions raises `IndexError`.

## Model

| member | source | states |
|---|---|---|
| Ranges.ToTuple | albumentations/core/transforms_interface.py:179-209 | It fails (ValueError) exactly when both `low` and `bias` are given, a sequence does not have exactly 2 items, or the argument is neither a number nor a sequence. `None` gives `None`. A scalar gives `(-v, v)`, or the ascending pair with `low`. A 2-sequence is taken as given, even when `low` is present. `bias` is added to both ends. |
| Ranges.ToTupleIdempotent | albumentations/core/transforms_interface.py:199-209 | Passing a result back in as a 2-sequence returns it unchanged, so the normalised pair is a fixed point. |
| Ranges.AnchoredIsAscending | albumentations/core/transforms_interface.py:194-198 | With an anchor, a scalar always succeeds. The pair is ordered and holds exactly the anchor and the scalar. |
| Ranges.ScalarIsCentredOnBias | albumentations/core/transforms_interface.py:194-207 | Without an anchor, a scalar gives the interval of half-width `v` centred on the bias, or on 0 when there is no bias. |
| Ranges.BiasShiftsUnbiasedResult | albumentations/core/transforms_interface.py:206-209 | The bias never changes whether the call fails. It shifts the unbiased pair by the same amount at both ends. |
| Batches.AssertArrayFormat | albumentations/core/transforms_interface.py:134-168 | A non-ndarray raises TypeError. A non-empty array passes exactly when it is 2-D with width 4 (boxes) or width 2..4 (keypoints). An empty array always passes. |
| Batches.EmptyMeta | albumentations/core/transforms_interface.py:71-72 | The synthesised metadata has exactly N rows of width 0. |
| Batches.Construct | albumentations/core/transforms_interface.py:64-78 | It succeeds exactly when the argument is an ndarray in the right format and the metadata count is right (equal to the record count, or zero with records present). A success is always a valid batch: format checked and counts equal. Given metadata is kept; missing metadata becomes one empty row per record. A list argument raises TypeError. An ndarray argument fails only with ValueError, from the format check or from the count comparison (lines 146-150, 171-175). |
| Batches.Length | albumentations/core/transforms_interface.py:80-82 | `__len__` succeeds exactly on a batch whose counts agree, and then gives that count. |
| Batches.Equals | albumentations/core/transforms_interface.py:104-115 | A different kind raises TypeError. Two empty batches of the same kind are equal whatever the stored shape, e.g. `(0, 4)` against `(0,)`. |
| Batches.EqualsIsStructural | albumentations/core/transforms_interface.py:111-115 | Same-kind valid batches that are not both empty are equal exactly when they are identical values. |
| Batches.EqualsReflexiveSymmetric | albumentations/core/transforms_interface.py:104-115 | Equality is reflexive and symmetric on same-kind batches. |
| Batches.GetItem | albumentations/core/transforms_interface.py:117-123 | Indexing yields a valid batch of the same class, because the result goes through the constructor. Failures are IndexError or ValueError. |
| Batches.GetItemPromotesRow | albumentations/core/transforms_interface.py:117-123 | An int index into a valid batch fails (IndexError) exactly when it is out of Python's range. Negative indices count from the end. Otherwise the result is a one-row batch holding that record and that metadata row. |
| Batches.GetItemSlices | albumentations/core/transforms_interface.py:117-123 | A slice of a valid batch always succeeds and keeps the selected records and metadata rows. |
| Batches.SetItem | albumentations/core/transforms_interface.py:125-127 | Assignment never resizes: both arrays keep their shapes and the class is kept. A consistent batch stays consistent. The only failures are numpy's IndexError and ValueError. An out-of-range int index raises IndexError before anything else. Between 2-D arrays, the write succeeds exactly when both value arrays broadcast into the selected rows (one row for an int index, the slice's row count or one for a slice; the same width or width 1). Any other failure on a consistent batch is ValueError. |
| Batches.SetItemReplacesSlice | albumentations/core/transforms_interface.py:125-127 | Writing a batch with exactly the rows a slice selects splices its records and its metadata rows in place of the selected ones. The rows before and after the slice are unchanged. |
| Batches.SetItemReplacesRow | albumentations/core/transforms_interface.py:125-127 | Writing a one-row batch at an in-range int index replaces exactly that record and that metadata row. Every other row is unchanged. |
| Batches.SetItemOfGetItemIsIdentity | albumentations/core/transforms_interface.py:117-127 | Writing back the row just read leaves the batch unchanged. |
| Batches.GetItemOfSetItem | albumentations/core/transforms_interface.py:117-127 | Reading back the row just written returns the written one-row batch. |
| Targets.TargetTable | albumentations/core/transforms_interface.py:378-450 | The tables are: ImageOnly `{image}`; Dual and NoOp `{image, mask, masks, bboxes, keypoints}`; ReferenceBased `{global_label, image, mask, bboxes, keypoints}`. The base class raises NotImplementedError. ReferenceBased raises AttributeError when `apply_to_global_label` is not defined. |
| Targets.Resolve | albumentations/core/transforms_interface.py:285-291 | A key is replaced by its alias, one step only, then looked up in the table. A key the table lacks resolves to the identity. It fails only when the table itself cannot be built. |
| Targets.UnknownKeyResolvesToIdentity | albumentations/core/transforms_interface.py:285-291 | A key that is neither aliased nor a table name resolves to the identity and is not an error. |
| Targets.AliasResolvesAsTarget | albumentations/core/transforms_interface.py:285-291 | An aliased key is dispatched exactly like the key it names. |
| Targets.MaskParams | albumentations/core/transforms_interface.py:407-408 | The mask parameters have the same keys as the input. An existing `interpolation` becomes nearest-neighbour and every other entry is unchanged. |
| Targets.MapMasks | albumentations/core/transforms_interface.py:410-411 | Masks are mapped one by one, keeping the count. Each output is `apply_to_mask` of the mask at the same position. It fails exactly when one mask fails. The only failure is NotImplementedError, raised at the first mask when a non-NoOp transform has no `apply`. |
| Targets.ApplyMasks | albumentations/core/transforms_interface.py:410-411 | For a list of masks, the output is a list of the same length whose items are the per-mask results. A non-empty list on a non-NoOp transform without `apply` raises NotImplementedError, and no other error arises from a list. |
| Targets.MapRows | albumentations/core/transforms_interface.py:397-405 | Every row is replaced, in order, by the kernel's result broadcast into the row. It succeeds exactly when the array is empty, or the kernel exists and every result has the row's width or length 1. With a kernel present, the only failure is ValueError. An empty array calls no kernel. A missing kernel raises NotImplementedError at the first row. |
| Targets.ApplyRows | albumentations/core/transforms_interface.py:391-405 | The batch apply functions keep the class, the metadata and the array shape. A valid batch stays valid. A value without `.array` raises AttributeError. NoOp returns its argument (lines 425-429). On a 2-D batch, the call fails exactly when the row loop fails, and with the same error: NotImplementedError for a missing per-row kernel on a non-empty batch (lines 391-395), ValueError for a result that does not fit the row. An array of another dimensionality is empty and comes back as it is. |
| Targets.ApplyRowsMapsEachRecord | albumentations/core/transforms_interface.py:397-405 | When the kernel keeps the width, every record becomes the kernel's image of that record. The metadata is untouched. |
| Targets.NoOpInvokeIsIdentity | albumentations/core/transforms_interface.py:422-435 | For any parameters, every NoOp target returns its argument unchanged. For `masks` this needs the argument to be a list. |
| Transforms.Init | albumentations/core/transforms_interface.py:218-228 | A new transform is not deterministic, uses save key `"replay"`, has empty `params` and no aliases, and is in neither replay state. |
| Transforms.SetDeterministic | albumentations/core/transforms_interface.py:274-278 | The reserved key `"params"` raises AssertionError. Otherwise only the flag and the save key change. |
| Transforms.AddTargets | albumentations/core/transforms_interface.py:320-329 | The alias map becomes exactly the given map and nothing else changes. |
| Transforms.AddTargetsReplaces | albumentations/core/transforms_interface.py:329 | A second `add_targets` forgets the first. An alias only the first call registered no longer redirects its key. |
| Transforms.UpdateParams | albumentations/core/transforms_interface.py:306-314 | It succeeds exactly when `image` is present with at least two dimensions, and otherwise raises KeyError, AttributeError or IndexError. On success the params gain `rows`/`cols` from the image shape plus the declared attributes. Every other entry is unchanged. |
| Transforms.Pick | albumentations/core/transforms_interface.py:246 | Selecting keys from the data succeeds exactly when they are all present (else KeyError). The result maps each selected key to its data value. |
| Transforms.CallArgs | albumentations/core/transforms_interface.py:268-269 | `dict(params, **target_dependencies)` fails with KeyError exactly when a dependency is missing from the data. On success its keys are the params' keys plus the dependencies, each dependency holds its data value (overriding a parameter of the same name), and every other parameter is kept. |
| Transforms.DispatchOne | albumentations/core/transforms_interface.py:265-271 | A `None` item stays `None`. For any other item: a table error (NotImplementedError, AttributeError) comes first; then a missing dependency raises KeyError; otherwise the resolved target function runs on the item with the CallArgs dictionary. |
| Transforms.DispatchEach | albumentations/core/transforms_interface.py:264-272 | The loop keeps every key in order. Each output is the dispatch of the item at the same position with the same parameters. It fails exactly when one item fails, and the error raised is that of the first failing item in data order. |
| Transforms.ApplyWithParams | albumentations/core/transforms_interface.py:260-272 | `None` params return the data unchanged. Otherwise the output has exactly the input keys and `None` stays `None`. Every item is dispatched with the single dictionary that `update_params` produced, which is also left in place. With params, a missing `image` raises KeyError, an image without `.shape` AttributeError, and a shape of fewer than two dimensions IndexError (line 313). With a usable image, a failure is that of the first failing item in data order. |
| Transforms.GatherParams | albumentations/core/transforms_interface.py:240-248 | It succeeds exactly when `targets_as_params` is empty, or every listed key is present and the hook exists. With `targets_as_params`, a missing key raises AssertionError and a missing hook raises NotImplementedError. The dependent parameters win on shared keys. Without it, the drawn parameters are used as they are. |
| Transforms.StoreInto | albumentations/core/transforms_interface.py:255 | A dict gains the entry `id -> params` and keeps every other entry. A list takes the params at the Python-normalised position when `id` is in range, and otherwise raises IndexError. A numpy array raises IndexError for a bad index and TypeError otherwise. A batch raises AttributeError, because its `__setitem__` reads `.array` of the dict (line 126). None, numbers and strings raise TypeError. |
| Transforms.Record | albumentations/core/transforms_interface.py:249-255 | A missing store raises KeyError. Otherwise the outcome is what `store[id] = params` gives for that store (see StoreInto). On success only the store item changes, and it is replaced by the updated store. |
| Transforms.Call | albumentations/core/transforms_interface.py:230-258 | A data item named `self` raises TypeError before anything else; then positional data raise KeyError. Replay: a step not applied returns the input and state unchanged; an applied one raises TypeError for a data item named `params`, and otherwise returns `apply_with_params(self.params)` with `self.params` updated. With no fire, the input comes back unchanged. On a fire: a GatherParams error is raised; when deterministic, a Record error is raised; a data item named `params` raises TypeError; otherwise `apply_with_params` runs with the merged params on the recorded (or unchanged) data, and the state is kept. The output keys equal the input keys. Only the replay branch changes the state, and only its `params`. |
| CallProperties.FireDecisionAtExtremes | albumentations/core/transforms_interface.py:239 | For a draw in [0, 1), `p = 1` always fires. `p = 0` without `always_apply`/`force_apply` never fires, and returns the input and state unchanged unless a data item named `self` raises TypeError. |
| CallProperties.UnknownKeyPassesThrough | albumentations/core/transforms_interface.py:285-291 | When `apply_with_params` succeeds, a data item under a key the transform does not know comes out exactly as it went in. |
| CallProperties.NoOpDispatchIsIdentity | albumentations/core/transforms_interface.py:264-272 | NoOp's dispatch loop returns the data unchanged. |
| CallProperties.NoOpCallIsIdentity | albumentations/core/transforms_interface.py:422-435 | A non-recording NoOp returns its input data unchanged in every branch: fired, skipped or replayed. |
| CallProperties.RecordThenReplay | albumentations/core/transforms_interface.py:233-256 | When a deterministic call fires and succeeds, its store (when a dict) holds the merged parameters under the instance id. An instance switched to replay with those parameters then succeeds on value-equal data and reproduces the output exactly, whatever the replay draw. |
| CallProperties.ReplayOfSkippedStepIsIdentity | albumentations/core/transforms_interface.py:233-237 | Replaying a step that was not applied returns the data and the state untouched, with no validation (only a data item named `self` fails, at binding). |
| CallProperties.MissingTargetParamFails | albumentations/core/transforms_interface.py:242-245 | A fire outside replay whose `targets_as_params` names a key missing from the data fails the whole call with AssertionError. |
| CallProperties.ImageDispatchUsesApply | albumentations/core/transforms_interface.py:265-269 | For the image-only, dual and reference-based tables, an item whose key resolves to `image` is handed to `apply` with the parameters merged with its dependencies. |
| CallProperties.MaskDispatchUsesNearest | albumentations/core/transforms_interface.py:407-408 | For the dual and reference-based tables, an item whose key resolves to `mask` is handed to `apply` with the same keys as the merged arguments, an existing `interpolation` set to nearest-neighbour, and every other entry unchanged. |
| CallProperties.LabelDispatchUsesLabelKernel | albumentations/core/transforms_interface.py:443-445 | For a reference-based transform, an item whose key resolves to `global_label` is handed to `apply_to_global_label` with the merged arguments. |
| CallProperties.SharedDrawEndToEnd | albumentations/core/transforms_interface.py:397-400 | A dual transform with `p = 1` gets a 10x10 image and one box. The image goes through `apply` and the box through `apply_to_bbox`, both with the same dictionary: the drawn parameters plus rows = cols = 10. The box metadata is kept. |

## Left out

- Pixel kernels (`apply`, `apply_to_bbox`, `apply_to_keypoint`, `apply_to_global_label` bodies, cv2 and numpy code) are opaque numeric code. They are modelled as optional function parameters. `cv2.INTER_NEAREST` is the enum constant `Nearest`.
- `random.random()` and `get_params()` are the caller's parameters `draw` and `drawn`. The process-wide generator is not modelled.
- `deepcopy` and `id(self)` are not modelled. Parameters are immutable values and the instance id is an explicit integer.
- The `warn(...)` for deterministic, target-dependent transforms (lines 251-254) is a side-effect diagnostic only.
- Serialisation and representation are not modelled: `__repr__`, `get_class_fullname`, `is_serializable`, `get_transform_init_args_names`, `get_base_init_args`, `get_transform_init_args`, `_to_dict`, `to_dict_private` and `get_dict_with_id`. They depend on `serialization` and `utils`, which are not part of this model.
- Float conversion (`astype(float)`) is not modelled: numbers are reals. `np.array_equal` is structural equality of shape and contents.
- User subclasses that override `targets` with their own tables are not modelled. Only the five classes of this file are.
- Some array shapes are not represented: 0-dimensional arrays, ragged metadata lists, metadata passed explicitly as `None`, and metadata that is 1-dimensional or has more than two dimensions. Metadata is always a 2-D grid here; with 1-D metadata, an int index in `__getitem__` fails when line 122 promotes the selected element (a TypeError on an object element).
- Ranges.ToTuple: only numbers and sequences of numbers are represented. A `str` passes the `Sequence` test (line 199), so `to_tuple("ab")` gives `('a', 'b')` and a string of another length raises ValueError. A sequence of non-numbers is returned as given (line 202), and with a bias, line 207 raises TypeError on it. The model has no non-numeric pair, so neither outcome is represented.
- Only two index forms are modelled: ints and step-1 slices with optional bounds. Other numpy index forms (arrays, tuples, steps) are not.
- Targets.ApplyMasks: only a list of masks is modelled. The source iterates any iterable (a stacked mask array, for one); the model raises TypeError for every non-list value.
- Batches.SetItem: when the metadata write fails after the array write has succeeded, the source has already overwritten the array. The model returns only the error.
- Targets.ApplyRows: when a kernel result fails to broadcast midway, the source has already rewritten the earlier rows of the caller's batch. The model returns only the error.
- Transforms.Call: on an exception, the source may already have extended `self.params` (replay branch) or written the store. The model returns only the error. Running Python with `-O` is not modelled. It strips every `assert`: the `targets_as_params` AssertionError would become a KeyError, `__len__` (line 81) would no longer check the two lengths, and `set_deterministic` (line 275) would accept the reserved save key `params`.
- Transforms.DispatchOne: a parameter or dependency whose name equals the target function's positional parameter raises TypeError in the source: `x` for the identity fallback, `img` for `apply` and `apply_to_mask`, `masks`, `bboxes` or `keypoints` for the list and batch hooks, `bbox`/`keypoint` for the per-row kernels, and `self` for any bound method. The model passes such a name on. The kernels' parameter names belong to the concrete subclasses, which are not part of this model.
- Transforms.Call: a data item named `force_apply` cannot reach `**kwargs` in the source, because Python binds it to the keyword parameter. The model's `forceApply` stands for that parameter, and a data item of that name is treated as ordinary data.
- Targets.ApplyRows: on success the source rewrites the caller's batch in place and returns that same object (lines 398-405). The model returns a new value, so object identity and aliasing are not represented.
- Batches.GetItem: the source's result shares its `targets` with the original as a numpy view (lines 119 and 122), so a later `__setitem__` on the result also writes into the original's metadata. The model's results are independent values.
- CallProperties.RecordThenReplay: the replay reproduces the output on value-equal data. In the source, replaying on the very objects a recording call has already transformed in place (its batches, for one) applies the transform again to the rewritten rows. Fresh copies of the data are needed there.

=== FILE: batches.dfy ===
/** The annotation batch containers: `BBoxesInternalType` and
    `KeypointsInternalType`, an N-row numeric array paired with an N-row
    metadata ("targets") array. */
module Batches {
  import opened Results

  /** One opaque metadata cell (a class label, an id, ...). */
  datatype Meta = Label(name: string) | Code(n: int)

  /** A 2-D array of shape (|rows|, width). */
  datatype Grid<T> = Grid(width: nat, rows: seq<seq<T>>)

  /** Every row has the declared width, as in any numpy 2-D array. */
  predicate Rectangular<T>(g: Grid<T>) {
    forall i :: 0 <= i < |g.rows| ==> |g.rows[i]| == g.width
  }

  /** The numeric `array` field: a 2-D array with its contents, or an array of
      any other dimensionality, of which only the shape matters (the format
      check admits such an array only when it is empty). */
  datatype NumArray =
    | Matrix(grid: Grid<real>)
    | OtherDims(shape: seq<nat>)

  predicate ArrayWellFormed(a: NumArray) {
    match a
    case Matrix(g) => Rectangular(g)
    case OtherDims(shape) => |shape| >= 1 && |shape| != 2
  }

  /** `len(array)`: the size of the first dimension. */
  function Len(a: NumArray): nat
    requires ArrayWellFormed(a)
  {
    match a
    case Matrix(g) => |g.rows|
    case OtherDims(shape) => shape[0]
  }

  function Shape(a: NumArray): seq<nat> {
    match a
    case Matrix(g) => [|g.rows|, g.width]
    case OtherDims(shape) => shape
  }

  /** The two concrete batch classes. */
  datatype Kind = BoxesKind | KeypointsKind

  /** The widths `assert_array_format` accepts for a non-empty array. */
  predicate WidthAllowed(kind: Kind, w: nat) {
    match kind
    case BoxesKind => w == 4
    case KeypointsKind => 2 <= w <= 4
  }

  /** The format check: an empty array always passes; a non-empty one must be
      2-D with an allowed last dimension. */
  predicate FormatOk(kind: Kind, a: NumArray)
    requires ArrayWellFormed(a)
  {
    Len(a) == 0 || (a.Matrix? && WidthAllowed(kind, a.grid.width))
  }

  /** `records` is the source's `array` field, `targets` its metadata. */
  datatype Batch = Batch(kind: Kind, records: NumArray, targets: Grid<Meta>)

  /** What every live batch keeps: numpy arrays are rectangular, and every
      assignment of `array` has passed the format check. */
  predicate WellFormed(b: Batch) {
    && ArrayWellFormed(b.records)
    && Rectangular(b.targets)
    && FormatOk(b.kind, b.records)
  }

  /** A well-formed batch whose record count equals its metadata row count. */
  predicate Valid(b: Batch) {
    WellFormed(b) && Len(b.records) == |b.targets.rows|
  }

  /** The `array` argument of the constructor. */
  datatype ArrayArg =
    | NdArray(a: NumArray)   // a numpy ndarray
    | PlainSequence          // a list or tuple, not yet an ndarray

  predicate ArgWellFormed(arg: ArrayArg) {
    arg.NdArray? ==> ArrayWellFormed(arg.a)
  }

  /** `assert_array_format`, run by `__setattr__` whenever `array` is assigned. */
  function AssertArrayFormat(kind: Kind, arg: ArrayArg): (r: Result<NumArray>)
    requires ArgWellFormed(arg)
    ensures r.Ok? <==> arg.NdArray? && FormatOk(kind, arg.a)
    ensures r.Ok? ==> r.value == arg.a
    ensures r.Err? ==> r.error == (if arg.NdArray? then ValueError else TypeError)
  {
    match arg
    case PlainSequence => Err(TypeError)
    case NdArray(a) => if FormatOk(kind, a) then Ok(a) else Err(ValueError)
  }

  /** N metadata rows of width zero. */
  function EmptyMeta(n: nat): (g: Grid<Meta>)
    ensures Rectangular(g) && |g.rows| == n && g.width == 0
  {
    Grid(0, seq(n, _ => []))
  }

  /** The constructor `Kind(array=arg, targets=meta)`, `meta` None meaning the
      default (0, 0) metadata array. The dataclass `__init__` assigns `array`
      first, so the format check sees the argument before `__post_init__`
      coerces it: a non-ndarray argument raises TypeError. Then missing
      metadata rows are synthesised and the counts compared. */
  function Construct(kind: Kind, arg: ArrayArg, meta: Option<Grid<Meta>>): (r: Result<Batch>)
    requires ArgWellFormed(arg)
    requires meta.Some? ==> Rectangular(meta.value)
    ensures r.Ok? ==> Valid(r.value) && r.value.kind == kind && arg.NdArray? && r.value.records == arg.a
    ensures arg.PlainSequence? ==> r == Err(TypeError)
    ensures arg.NdArray? ==>
      var given := if meta.Some? then |meta.value.rows| else 0;
      (r.Ok? <==> FormatOk(kind, arg.a) && (given == Len(arg.a) || (given == 0 && Len(arg.a) > 0)))
    ensures r.Err? ==> r.error in {TypeError, ValueError}
    // An ndarray argument fails only by its format or its record count.
    ensures arg.NdArray? && r.Err? ==> r.error == ValueError
    // Metadata given with the right count is kept; missing metadata becomes
    // one empty row per record.
    ensures r.Ok? && meta.Some? && |meta.value.rows| == Len(arg.a) ==> r.value.targets == meta.value
    ensures r.Ok? && (meta.None? || |meta.value.rows| == 0) ==>
      r.value.targets == (if Len(arg.a) > 0 then EmptyMeta(Len(arg.a)) else meta.GetOr(Grid(0, [])))
  {
    var arr :- AssertArrayFormat(kind, arg);
    var given := meta.GetOr(Grid(0, []));
    var targets := if Len(arr) > 0 && |given.rows| == 0 then EmptyMeta(Len(arr)) else given;
    if Len(arr) != |targets.rows| then Err(ValueError)
    else Ok(Batch(kind, arr, targets))
  }

  /** `__len__`: asserts the counts agree. */
  function Length(b: Batch): (r: Result<nat>)
    requires WellFormed(b)
    ensures r.Ok? <==> Valid(b)
    ensures r.Ok? ==> r.value == |b.targets.rows|
    ensures r.Err? ==> r.error == AssertionError
  {
    if Len(b.records) == |b.targets.rows| then Ok(Len(b.records)) else Err(AssertionError)
  }

  /** `np.array_equal` on the numeric arrays: same shape, same contents. */
  predicate ArrayEqual(a: NumArray, c: NumArray) {
    match (a, c)
    case (Matrix(g), Matrix(h)) => g == h
    case (OtherDims(s), OtherDims(t)) => s == t
    case _ => false
  }

  /** `Floats4Internal.__eq__`. */
  function Equals(a: Batch, b: Batch): (r: Result<bool>)
    requires WellFormed(a) && WellFormed(b)
    ensures r.Err? <==> a.kind != b.kind
    ensures r.Err? ==> r.error == TypeError
    ensures a.kind == b.kind && Valid(a) && Valid(b) && Len(a.records) == 0 && Len(b.records) == 0 ==> r == Ok(true)
  {
    if a.kind != b.kind then Err(TypeError)
    else if Len(a.records) == 0 && Len(b.records) == 0 && |a.targets.rows| == 0 && |b.targets.rows| == 0 then Ok(true)
    else Ok(ArrayEqual(a.records, b.records) && a.targets == b.targets)
  }

  /** On non-empty batches equality is structural: it holds exactly when the
      two batches are the same value. */
  lemma EqualsIsStructural(a: Batch, b: Batch)
    requires Valid(a) && Valid(b) && a.kind == b.kind
    requires Len(a.records) > 0 || Len(b.records) > 0
    ensures Equals(a, b) == Ok(a == b)
  {
    if Len(a.records) > 0 {
      assert a.records.Matrix?;
    } else {
      assert b.records.Matrix?;
    }
  }

  /** Equality is reflexive and symmetric on same-kind batches. */
  lemma EqualsReflexiveSymmetric(a: Batch, b: Batch)
    requires Valid(a) && Valid(b) && a.kind == b.kind
    ensures Equals(a, a) == Ok(true)
    ensures Equals(a, b) == Equals(b, a)
  {
  }

  // ---------------------------------------------------------------- indexing

  /** The index forms of `__getitem__` / `__setitem__`: an int, or a slice
      with step 1 and optional bounds. */
  datatype Index = At(i: int) | Span(start: Option<int>, stop: Option<int>)

  /** Python's normalisation of an int index against length n. */
  predicate InRange(i: int, n: nat) {
    -(n as int) <= i < n
  }

  function Normalise(i: int, n: nat): (k: nat)
    requires InRange(i, n)
    ensures k < n
    ensures i >= 0 ==> k == i
    ensures i < 0 ==> k == n + i
  {
    if i < 0 then n + i else i
  }

  /** One bound of a step-1 slice, resolved and clamped to [0, n]. */
  function Bound(b: Option<int>, default: nat, n: nat): (k: nat)
    requires default <= n
    ensures k <= n
  {
    match b
    case None => default
    case Some(x) =>
      if x < 0 then (if x + n < 0 then 0 else x + n)
      else if x > n then n else x
  }

  /** The rows [lo, hi) a step-1 slice selects from n rows. */
  function SliceBounds(start: Option<int>, stop: Option<int>, n: nat): (lh: (nat, nat))
    ensures lh.0 <= lh.1 <= n
  {
    var lo := Bound(start, 0, n);
    var hi := Bound(stop, n, n);
    (lo, if hi < lo then lo else hi)
  }

  function SliceGrid<T>(g: Grid<T>, start: Option<int>, stop: Option<int>): (h: Grid<T>)
    requires Rectangular(g)
    ensures Rectangular(h) && h.width == g.width
    ensures var (lo, hi) := SliceBounds(start, stop, |g.rows|); h.rows == g.rows[lo..hi]
  {
    var (lo, hi) := SliceBounds(start, stop, |g.rows|);
    Grid(g.width, g.rows[lo..hi])
  }

  function SliceArray(a: NumArray, start: Option<int>, stop: Option<int>): (c: NumArray)
    requires ArrayWellFormed(a)
    ensures ArrayWellFormed(c) && c.Matrix? == a.Matrix?
  {
    match a
    case Matrix(g) => Matrix(SliceGrid(g, start, stop))
    case OtherDims(shape) =>
      var (lo, hi) := SliceBounds(start, stop, shape[0]);
      OtherDims([hi - lo] + shape[1..])
  }

  /** `Floats4Internal.__getitem__`: select rows of both arrays and build a new
      batch of the same class through the constructor. An int index promotes
      the selected row and metadata row to a one-row batch. */
  function GetItem(b: Batch, idx: Index): (r: Result<Batch>)
    requires WellFormed(b)
    ensures r.Ok? ==> Valid(r.value) && r.value.kind == b.kind
    ensures r.Err? ==> r.error in {IndexError, ValueError}
  {
    match idx
    case At(i) =>
      if b.records.OtherDims? || !InRange(i, Len(b.records)) then Err(IndexError)
      else if !InRange(i, |b.targets.rows|) then Err(IndexError)
      else
        var g := b.records.grid;
        var row := g.rows[Normalise(i, |g.rows|)];
        var meta := b.targets.rows[Normalise(i, |b.targets.rows|)];
        Construct(b.kind, NdArray(Matrix(Grid(g.width, [row]))), Some(Grid(b.targets.width, [meta])))
    case Span(start, stop) =>
      Construct(b.kind, NdArray(SliceArray(b.records, start, stop)), Some(SliceGrid(b.targets, start, stop)))
  }

  /** Int indexing of a consistent batch fails exactly when the index is out
      of range, and otherwise gives the one-row batch of that record and its
      metadata row. */
  lemma GetItemPromotesRow(b: Batch, i: int)
    requires Valid(b)
    ensures GetItem(b, At(i)).Ok? <==> InRange(i, Len(b.records))
    ensures GetItem(b, At(i)).Err? ==> GetItem(b, At(i)).error == IndexError
    ensures GetItem(b, At(i)).Ok? ==>
      var c := GetItem(b, At(i)).value;
      var k := Normalise(i, Len(b.records));
      && Len(c.records) == 1
      && c.records == Matrix(Grid(b.records.grid.width, [b.records.grid.rows[k]]))
      && c.targets == Grid(b.targets.width, [b.targets.rows[k]])
  {
    if InRange(i, Len(b.records)) {
      var g := b.records.grid;
      var k := Normalise(i, |g.rows|);
      var row := Matrix(Grid(g.width, [g.rows[k]]));
      assert Rectangular(row.grid);
      assert FormatOk(b.kind, row);
    }
  }

  /** Slicing a consistent batch always succeeds and keeps the selected
      records and metadata rows, still aligned. */
  lemma GetItemSlices(b: Batch, start: Option<int>, stop: Option<int>)
    requires Valid(b)
    ensures GetItem(b, Span(start, stop)).Ok?
    ensures var c := GetItem(b, Span(start, stop)).value;
      && c.records == SliceArray(b.records, start, stop)
      && c.targets == SliceGrid(b.targets, start, stop)
  {
    var a := SliceArray(b.records, start, stop);
    var t := SliceGrid(b.targets, start, stop);
    assert Len(a) == |t.rows|;
    if Len(a) > 0 {
      assert b.records.Matrix?;
    }
  }

  // ---------------------------------------------------------------- writing

  /** numpy's rule for assigning an array of shape `src` into a region of
      shape `dst`: right-aligned, each source dimension equals the target one
      or is 1; extra leading source dimensions must be 1. */
  predicate BroadcastsTo(src: seq<nat>, dst: seq<nat>)
    decreases |src|
  {
    if |src| == 0 then true
    else if |src| > |dst| then src[0] == 1 && BroadcastsTo(src[1..], dst)
    else
      && (src[|src| - 1] == dst[|dst| - 1] || src[|src| - 1] == 1)
      && BroadcastsTo(src[..|src| - 1], dst[..|dst| - 1])
  }

  /** A source row broadcast to width w. */
  function BroadcastRow<T>(src: seq<T>, w: nat): (r: seq<T>)
    requires |src| == w || |src| == 1
    ensures |r| == w
    ensures |src| == w ==> r == src
  {
    if |src| == w then src else seq(w, _ => src[0])
  }

  /** A source grid broadcast over k rows of width w. */
  function Spread<T>(src: Grid<T>, k: nat, w: nat): (rows: seq<seq<T>>)
    requires Rectangular(src)
    requires |src.rows| == k || |src.rows| == 1
    requires src.width == w || src.width == 1
    ensures |rows| == k
    ensures forall j :: 0 <= j < k ==> |rows[j]| == w
    ensures forall j :: 0 <= j < k ==> rows[j] == BroadcastRow(src.rows[if |src.rows| == 1 then 0 else j], w)
  {
    var rows := seq(k, j requires 0 <= j < k => BroadcastRow(src.rows[if |src.rows| == 1 then 0 else j], w));
    assert forall j :: 0 <= j < k ==> |rows[j]| == w by {
      forall j | 0 <= j < k
        ensures |rows[j]| == w
      {
        assert rows[j] == BroadcastRow(src.rows[if |src.rows| == 1 then 0 else j], w);
      }
    }
    rows
  }

  /** The broadcast rule for a 2-D source into one row of width w. */
  lemma BroadcastIntoRow(n: nat, ws: nat, w: nat)
    ensures BroadcastsTo([n, ws], [w]) <==> n == 1 && (ws == w || ws == 1)
  {
    assert [n, ws][1..] == [ws];
    assert [ws][..0] == [] && [w][..0] == [];
    assert BroadcastsTo([ws], [w]) <==> (ws == w || ws == 1);
    assert BroadcastsTo([n, ws], [w]) <==> n == 1 && BroadcastsTo([ws], [w]);
  }

  /** The broadcast rule for a 2-D source into k rows of width w. */
  lemma BroadcastIntoRows(n: nat, ws: nat, k: nat, w: nat)
    ensures BroadcastsTo([n, ws], [k, w]) <==> (n == k || n == 1) && (ws == w || ws == 1)
  {
    assert [n, ws][..1] == [n] && [k, w][..1] == [k];
    assert [n][..0] == [] && [k][..0] == [];
    assert BroadcastsTo([n], [k]) <==> (n == k || n == 1);
    assert BroadcastsTo([n, ws], [k, w]) <==> (ws == w || ws == 1) && BroadcastsTo([n], [k]);
  }

  /** Whether a 2-D source can be assigned at `idx` into n rows of width w:
      an int index must be in range and take exactly one source row, a slice
      takes as many rows as it selects or one; in both cases the source width
      is w or 1. */
  predicate Fits<T>(src: Grid<T>, idx: Index, n: nat, w: nat) {
    && (src.width == w || src.width == 1)
    && match idx
       case At(i) => InRange(i, n) && |src.rows| == 1
       case Span(start, stop) =>
         var (lo, hi) := SliceBounds(start, stop, n);
         |src.rows| == hi - lo || |src.rows| == 1
  }

  /** `grid[idx] = src` for a 2-D destination. */
  function WriteGrid<T>(g: Grid<T>, idx: Index, src: Grid<T>): (r: Result<Grid<T>>)
    requires Rectangular(g) && Rectangular(src)
    ensures r.Ok? ==> Rectangular(r.value) && r.value.width == g.width && |r.value.rows| == |g.rows|
    ensures r.Ok? <==> Fits(src, idx, |g.rows|, g.width)
    ensures r.Err? ==> r.error in {IndexError, ValueError}
    // The index is checked before the broadcast.
    ensures idx.At? && !InRange(idx.i, |g.rows|) ==> r == Err(IndexError)
    ensures r.Err? && (idx.Span? || InRange(idx.i, |g.rows|)) ==> r.error == ValueError
  {
    match idx
    case At(i) =>
      BroadcastIntoRow(|src.rows|, src.width, g.width);
      if !InRange(i, |g.rows|) then Err(IndexError)
      else if !BroadcastsTo([|src.rows|, src.width], [g.width]) then Err(ValueError)
      else
        var k := Normalise(i, |g.rows|);
        Ok(Grid(g.width, g.rows[k := Spread(src, 1, g.width)[0]]))
    case Span(start, stop) =>
      var (lo, hi) := SliceBounds(start, stop, |g.rows|);
      BroadcastIntoRows(|src.rows|, src.width, hi - lo, g.width);
      if !BroadcastsTo([|src.rows|, src.width], [hi - lo, g.width]) then Err(ValueError)
      else Ok(Grid(g.width, g.rows[..lo] + Spread(src, hi - lo, g.width) + g.rows[hi..]))
  }

  /** `array[idx] = src` for the numeric field. A source of a dimensionality
      other than 2 is empty in a well-formed batch, so a write it broadcasts
      into touches no element. */
  function WriteArray(a: NumArray, idx: Index, src: NumArray): (r: Result<NumArray>)
    requires ArrayWellFormed(a) && ArrayWellFormed(src)
    ensures r.Ok? ==> ArrayWellFormed(r.value) && Shape(r.value) == Shape(a)
    ensures r.Err? ==> r.error in {IndexError, ValueError}
  {
    match a
    case OtherDims(shape) =>
      if idx.At? then (if InRange(idx.i, shape[0]) then Err(ValueError) else Err(IndexError))
      else
        var (lo, hi) := SliceBounds(idx.start, idx.stop, shape[0]);
        if BroadcastsTo(Shape(src), [hi - lo] + shape[1..]) then Ok(a) else Err(ValueError)
    case Matrix(g) =>
      match src
      case Matrix(h) =>
        var w :- WriteGrid(g, idx, h);
        Ok(Matrix(w))
      case OtherDims(s) =>
        if idx.At? then
          if !InRange(idx.i, |g.rows|) then Err(IndexError)
          else if BroadcastsTo(s, [g.width]) then Ok(a) else Err(ValueError)
        else
          var (lo, hi) := SliceBounds(idx.start, idx.stop, |g.rows|);
          if BroadcastsTo(s, [hi - lo, g.width]) then Ok(a) else Err(ValueError)
  }

  /** `Floats4Internal.__setitem__`: numpy assignment of the value's array and
      then of its metadata, with no format or count validation beyond numpy's
      own index and broadcast errors. */
  function SetItem(b: Batch, idx: Index, v: Batch): (r: Result<Batch>)
    requires WellFormed(b) && WellFormed(v)
    ensures r.Ok? ==> r.value.kind == b.kind
    // No implicit resize: both arrays keep their shapes.
    ensures r.Ok? ==> Shape(r.value.records) == Shape(b.records)
    ensures r.Ok? ==> r.value.targets.width == b.targets.width && |r.value.targets.rows| == |b.targets.rows|
    ensures r.Ok? && Valid(b) ==> Valid(r.value)
    ensures r.Err? ==> r.error in {IndexError, ValueError}
    // An out-of-range int index fails before anything is written.
    ensures idx.At? && !InRange(idx.i, Len(b.records)) ==> r == Err(IndexError)
    // Between 2-D arrays, the write succeeds exactly when both sources fit.
    ensures b.records.Matrix? && v.records.Matrix? ==>
      (r.Ok? <==> Fits(v.records.grid, idx, Len(b.records), b.records.grid.width)
                  && Fits(v.targets, idx, |b.targets.rows|, b.targets.width))
    ensures Valid(b) && r.Err? && (idx.Span? || InRange(idx.i, Len(b.records))) ==> r.error == ValueError
  {
    var arr :- WriteArray(b.records, idx, v.records);
    var targets :- WriteGrid(b.targets, idx, v.targets);
    Ok(Batch(b.kind, arr, targets))
  }

  /** Writing a one-row batch at an in-range int index replaces exactly that
      record and that metadata row. */
  lemma SetItemReplacesRow(b: Batch, i: int, v: Batch)
    requires Valid(b) && Valid(v) && InRange(i, Len(b.records))
    requires b.records.Matrix? && v.records.Matrix?
    requires |v.records.grid.rows| == 1 && v.records.grid.width == b.records.grid.width
    requires v.targets.width == b.targets.width
    ensures SetItem(b, At(i), v).Ok?
    ensures var k := Normalise(i, Len(b.records));
      var c := SetItem(b, At(i), v).value;
      && c.records == Matrix(Grid(b.records.grid.width, b.records.grid.rows[k := v.records.grid.rows[0]]))
      && c.targets == Grid(b.targets.width, b.targets.rows[k := v.targets.rows[0]])
  {
    var g, h := b.records.grid, v.records.grid;
    assert BroadcastsTo([|h.rows|, h.width], [g.width]) by {
      assert BroadcastsTo([h.width], [g.width]);
    }
    assert Spread(h, 1, g.width)[0] == h.rows[0];
    var t, u := b.targets, v.targets;
    assert BroadcastsTo([|u.rows|, u.width], [t.width]) by {
      assert BroadcastsTo([u.width], [t.width]);
    }
    assert Spread(u, 1, t.width)[0] == u.rows[0];
  }

  /** Writing a batch of exactly the selected rows into a slice splices its
      records and its metadata rows in place of the selected ones. */
  lemma SetItemReplacesSlice(b: Batch, start: Option<int>, stop: Option<int>, v: Batch)
    requires Valid(b) && Valid(v)
    requires b.records.Matrix? && v.records.Matrix?
    requires var (lo, hi) := SliceBounds(start, stop, Len(b.records)); |v.records.grid.rows| == hi - lo
    requires v.records.grid.width == b.records.grid.width
    requires v.targets.width == b.targets.width
    ensures SetItem(b, Span(start, stop), v).Ok?
    ensures var (lo, hi) := SliceBounds(start, stop, Len(b.records));
      var c := SetItem(b, Span(start, stop), v).value;
      && c.records.Matrix?
      && c.records.grid.rows == b.records.grid.rows[..lo] + v.records.grid.rows + b.records.grid.rows[hi..]
      && c.targets.rows == b.targets.rows[..lo] + v.targets.rows + b.targets.rows[hi..]
  {
    var (lo, hi) := SliceBounds(start, stop, Len(b.records));
    SpreadOfExactIsSelf(v.records.grid, hi - lo, b.records.grid.width);
    SpreadOfExactIsSelf(v.targets, hi - lo, b.targets.width);
  }

  /** A source that already has the target shape is written unchanged. */
  lemma SpreadOfExactIsSelf<T>(src: Grid<T>, k: nat, w: nat)
    requires Rectangular(src) && |src.rows| == k && src.width == w
    ensures Spread(src, k, w) == src.rows
  {
    var rows := Spread(src, k, w);
    forall j | 0 <= j < k
      ensures rows[j] == src.rows[j]
    {
      assert |src.rows[j]| == w;
    }
  }

  /** Writing back the row just read leaves the batch unchanged. */
  lemma SetItemOfGetItemIsIdentity(b: Batch, i: int)
    requires Valid(b) && InRange(i, Len(b.records))
    ensures GetItem(b, At(i)).Ok?
    ensures SetItem(b, At(i), GetItem(b, At(i)).value) == Ok(b)
  {
    var v := GetItem(b, At(i)).value;
    SetItemReplacesRow(b, i, v);
    var k := Normalise(i, Len(b.records));
    assert b.records.grid.rows[k := b.records.grid.rows[k]] == b.records.grid.rows;
    assert b.targets.rows[k := b.targets.rows[k]] == b.targets.rows;
  }

  /** Reading back the row just written gives the written one-row batch. */
  lemma GetItemOfSetItem(b: Batch, i: int, v: Batch)
    requires Valid(b) && Valid(v) && InRange(i, Len(b.records))
    requires b.records.Matrix? && v.records.Matrix?
    requires |v.records.grid.rows| == 1 && v.records.grid.width == b.records.grid.width
    requires v.targets.width == b.targets.width
    requires v.kind == b.kind
    ensures SetItem(b, At(i), v).Ok?
    ensures GetItem(SetItem(b, At(i), v).value, At(i)) == Ok(v)
  {
    SetItemReplacesRow(b, i, v);
    var c := SetItem(b, At(i), v).value;
    assert v.records.grid.rows == [v.records.grid.rows[0]];
    assert v.targets.rows == [v.targets.rows[0]];
  }
}

=== FILE: call_properties.dfy ===
/** Properties of `BasicTransform.__call__` and `apply_with_params` that
    relate several calls or several data items. */
module CallProperties {
  import opened Results
  import opened Batches
  import opened Data
  import opened Targets
  import opened Transforms

  /** With a draw in [0, 1), as `random.random()` gives: p = 1 always fires,
      and p = 0 without `always_apply` or `force_apply` never fires, so the
      data come back unchanged. */
  lemma FireDecisionAtExtremes(st: TransformState, kernels: Kernels, forceApply: bool, draw: real, drawn: Params, kw: Kwargs)
    requires DataWellFormed(kw) && !st.replayMode
    requires 0.0 <= draw < 1.0
    ensures st.p >= 1.0 ==> Fires(st, draw, forceApply)
    ensures st.p <= 0.0 && !st.alwaysApply && !forceApply ==>
      Call(st, kernels, 0, forceApply, draw, drawn, kw) == (if HasKey(kw, SelfArg) then Err(TypeError) else Ok(Called(st, kw)))
  {
  }

  lemma UnknownKeyDispatch(rt: Routing, kernels: Kernels, params: Params, all: Kwargs, key: string, arg: Value)
    requires arg.Annotations? ==> WellFormed(arg.batch)
    requires key !in rt.aliases
    requires key !in {"image", "mask", "masks", "bboxes", "keypoints", "global_label"}
    requires DispatchOne(rt, kernels, params, all, key, arg).Ok?
    ensures DispatchOne(rt, kernels, params, all, key, arg).value == arg
  {
    if arg != Null {
      assert Resolve(rt.aliases, rt.kind, kernels, key) == Ok(Identity);
    }
  }

  /** A data key the transform does not know is returned as it came. */
  lemma UnknownKeyPassesThrough(rt: Routing, kernels: Kernels, params: Params, kw: Kwargs, i: int)
    requires DataWellFormed(kw)
    requires 0 <= i < |kw|
    requires kw[i].0 !in rt.aliases
    requires kw[i].0 !in {"image", "mask", "masks", "bboxes", "keypoints", "global_label"}
    ensures ApplyWithParams(rt, kernels, Some(params), kw).Ok? ==>
      ApplyWithParams(rt, kernels, Some(params), kw).value.out[i] == kw[i]
  {
    if ApplyWithParams(rt, kernels, Some(params), kw).Ok? {
      var a := ApplyWithParams(rt, kernels, Some(params), kw).value;
      var q := a.params.value;
      assert Ok(a.out[i].1) == DispatchOne(rt, kernels, q, kw, kw[i].0, kw[i].1);
      UnknownKeyDispatch(rt, kernels, q, kw, kw[i].0, kw[i].1);
      assert a.out[i].0 == Keys(a.out)[i] == Keys(kw)[i] == kw[i].0;
    }
  }

  /** What a call needs of its data for NoOp to get through dispatch: the
      dependencies of every item present, and `masks` items given as lists. */
  predicate Dispatchable(rt: Routing, kernels: Kernels, kw: Kwargs) {
    forall i :: 0 <= i < |kw| && kw[i].1 != Null ==>
      && (forall d :: d in DependenciesOf(rt, kw[i].0) ==> HasKey(kw, d))
      && (Resolve(rt.aliases, rt.kind, kernels, kw[i].0) == Ok(ApplyToMasks) ==> kw[i].1.List?)
  }

  lemma {:induction false} NoOpDispatchIsIdentity(rt: Routing, kernels: Kernels, params: Params, all: Kwargs, rest: Kwargs)
    requires rt.kind == NoOp && DataWellFormed(rest)
    requires forall i :: 0 <= i < |rest| && rest[i].1 != Null ==>
      && (forall d :: d in DependenciesOf(rt, rest[i].0) ==> HasKey(all, d))
      && (Resolve(rt.aliases, rt.kind, kernels, rest[i].0) == Ok(ApplyToMasks) ==> rest[i].1.List?)
    ensures DispatchEach(rt, kernels, params, all, rest) == Ok(rest)
  {
    if rest != [] {
      var (key, arg) := rest[0];
      if arg != Null {
        var fn := Resolve(rt.aliases, rt.kind, kernels, key).value;
        assert fn != ApplyToGlobalLabel by {
          var name := TargetName(rt.aliases, key);
          assert name != "global_label" ==> fn == Identity || fn == DualTable[name];
        }
        var args := CallArgs(params, all, DependenciesOf(rt, key));
        assert args.Ok?;
        NoOpInvokeIsIdentity(kernels, fn, arg, args.value);
      }
      assert DispatchOne(rt, kernels, params, all, key, arg) == Ok(arg);
      assert DataWellFormed(rest[1..]) by {
        forall i | 0 <= i < |rest[1..]| ensures rest[1..][i] == rest[i + 1] { }
      }
      forall i | 0 <= i < |rest[1..]| ensures rest[1..][i] == rest[i + 1] { }
      NoOpDispatchIsIdentity(rt, kernels, params, all, rest[1..]);
      assert [(key, arg)] + rest[1..] == rest;
    }
  }

  /** NoOp returns every target unchanged, whether it fires, is skipped or
      replays (when it is not recording into a store). */
  lemma NoOpCallIsIdentity(st: TransformState, kernels: Kernels, forceApply: bool, draw: real, drawn: Params, kw: Kwargs)
    requires st.kind == NoOp && !st.deterministic && |st.profile.targetsAsParams| == 0
    requires DataWellFormed(kw) && HasImageShape(kw) && Dispatchable(RoutingOf(st), kernels, kw)
    requires !HasKey(kw, SelfArg) && !HasKey(kw, ParamsArg)
    ensures Call(st, kernels, 0, forceApply, draw, drawn, kw).Ok?
    ensures Call(st, kernels, 0, forceApply, draw, drawn, kw).value.out == kw
  {
    var rt := RoutingOf(st);
    var params := if st.replayMode then st.params else Some(drawn);
    if params.Some? {
      var q := UpdateParams(st.profile, params.value, kw).value;
      NoOpDispatchIsIdentity(rt, kernels, q, kw, kw);
    }
  }

  /** The firing branch of a recording call, unfolded. */
  lemma RecordingCallOutput(st: TransformState, kernels: Kernels, forceApply: bool, draw: real, drawn: Params, kw: Kwargs)
    requires DataWellFormed(kw)
    requires !st.replayMode && st.deterministic && Fires(st, draw, forceApply)
    ensures Call(st, kernels, 0, forceApply, draw, drawn, kw).Ok? ==>
      && GatherParams(st, kernels, drawn, kw).Ok?
      && Record(kw, st.saveKey, st.id, GatherParams(st, kernels, drawn, kw).value).Ok?
      && var recorded := Record(kw, st.saveKey, st.id, GatherParams(st, kernels, drawn, kw).value).value;
         && DataWellFormed(recorded)
         && !HasKey(kw, SelfArg) && !HasKey(kw, ParamsArg)
         && ApplyWithParams(RoutingOf(st), kernels, Some(GatherParams(st, kernels, drawn, kw).value), recorded).Ok?
         && Call(st, kernels, 0, forceApply, draw, drawn, kw).value.out
            == ApplyWithParams(RoutingOf(st), kernels, Some(GatherParams(st, kernels, drawn, kw).value), recorded).value.out
  {
  }

  /** The replay branch of a call, unfolded. */
  lemma ReplayingCallOutput(st: TransformState, kernels: Kernels, forceApply: bool, draw: real, drawn: Params, kw: Kwargs)
    requires DataWellFormed(kw)
    requires st.replayMode && st.appliedInReplay && !HasKey(kw, SelfArg) && !HasKey(kw, ParamsArg)
    requires ApplyWithParams(RoutingOf(st), kernels, st.params, kw).Ok?
    ensures Call(st, kernels, 0, forceApply, draw, drawn, kw).Ok?
    ensures Call(st, kernels, 0, forceApply, draw, drawn, kw).value.out
         == ApplyWithParams(RoutingOf(st), kernels, st.params, kw).value.out
  {
  }

  /** Recording then replaying: a deterministic call that fires stores its
      merged parameters under the instance id; an instance switched to replay
      with those parameters, given the same data, reproduces the output
      exactly, whatever its draw and its `get_params`. */
  lemma RecordThenReplay(st: TransformState, kernels: Kernels, forceApply: bool, draw: real, drawn: Params, kw: Kwargs,
                         replayDraw: real, replayForce: bool, replayDrawn: Params)
    requires DataWellFormed(kw)
    requires !st.replayMode && st.deterministic && Fires(st, draw, forceApply)
    ensures Call(st, kernels, 0, forceApply, draw, drawn, kw).Ok? ==>
      && GatherParams(st, kernels, drawn, kw).Ok?
      && Record(kw, st.saveKey, st.id, GatherParams(st, kernels, drawn, kw).value).Ok?
      && var merged := GatherParams(st, kernels, drawn, kw).value;
         var recorded := Record(kw, st.saveKey, st.id, merged).value;
         var replayer := st.(replayMode := true, appliedInReplay := true, params := Some(merged));
         && (Lookup(kw, st.saveKey).value.Dict? ==> Lookup(recorded, st.saveKey).value.byId[st.id] == Dict(merged, map[]))
         && DataWellFormed(recorded)
         && Call(replayer, kernels, 0, replayForce, replayDraw, replayDrawn, recorded).Ok?
         && Call(replayer, kernels, 0, replayForce, replayDraw, replayDrawn, recorded).value.out
            == Call(st, kernels, 0, forceApply, draw, drawn, kw).value.out
  {
    if Call(st, kernels, 0, forceApply, draw, drawn, kw).Ok? {
      RecordingCallOutput(st, kernels, forceApply, draw, drawn, kw);
      var merged := GatherParams(st, kernels, drawn, kw).value;
      var recorded := Record(kw, st.saveKey, st.id, merged).value;
      var replayer := st.(replayMode := true, appliedInReplay := true, params := Some(merged));
      assert RoutingOf(replayer) == RoutingOf(st);
      SameKeysSameNames(kw, recorded, SelfArg);
      SameKeysSameNames(kw, recorded, ParamsArg);
      ReplayingCallOutput(replayer, kernels, replayForce, replayDraw, replayDrawn, recorded);
    }
  }

  /** A replaying instance whose transform did not fire when recorded hands
      the data back untouched, with no validation of any kind. */
  lemma ReplayOfSkippedStepIsIdentity(st: TransformState, kernels: Kernels, forceApply: bool, draw: real, drawn: Params, kw: Kwargs)
    requires DataWellFormed(kw) && st.replayMode && !st.appliedInReplay
    ensures Call(st, kernels, 0, forceApply, draw, drawn, kw) == (if HasKey(kw, SelfArg) then Err(TypeError) else Ok(Called(st, kw)))
  {
  }

  /** The firing branch of a call that neither records nor reads targets for
      its parameters, unfolded. */
  lemma PlainFiringCall(st: TransformState, kernels: Kernels, forceApply: bool, draw: real, drawn: Params, kw: Kwargs)
    requires DataWellFormed(kw)
    requires !st.replayMode && !st.deterministic && |st.profile.targetsAsParams| == 0 && Fires(st, draw, forceApply)
    requires !HasKey(kw, SelfArg) && !HasKey(kw, ParamsArg)
    ensures Call(st, kernels, 0, forceApply, draw, drawn, kw) ==
      (match ApplyWithParams(RoutingOf(st), kernels, Some(drawn), kw)
       case Ok(a) => Ok(Called(st, a.out))
       case Err(e) => Err(e))
  {
  }

  /** The end-to-end case: a dual transform with p = 1 applied to a 10x10
      image and one box draws its parameters once, and the image and the box
      are both transformed with that same dictionary (the drawn parameters
      plus the image's rows and columns); the box's metadata is kept. */
  lemma SharedDrawEndToEnd(st: TransformState, f: (Value, Params) -> Value, g: (seq<real>, Params) -> seq<real>,
                           other: Kernels, draw: real, drawn: Params, cells: seq<real>)
    requires st.kind == Dual && st.p == 1.0 && !st.replayMode && !st.deterministic
    requires st.profile == PlainProfile && st.additionalTargets == map[]
    requires 0.0 <= draw < 1.0
    requires |g([1.0, 1.0, 5.0, 5.0], drawn["cols" := Int(10)]["rows" := Int(10)])| == 4
    ensures
      var kernels := other.(apply := Some(f), applyToBbox := Some(g));
      var box := Construct(BoxesKind, NdArray(Matrix(Grid(4, [[1.0, 1.0, 5.0, 5.0]]))), Some(Grid(0, [[]])));
      var shared := drawn["cols" := Int(10)]["rows" := Int(10)];
      && box.Ok?
      && Call(st, kernels, 0, false, draw, drawn,
              [("image", Buffer([10, 10], cells)), ("bboxes", Annotations(box.value))])
         == Ok(Called(st, [("image", f(Buffer([10, 10], cells), shared)),
                           ("bboxes", Annotations(box.value.(records := Matrix(Grid(4, [g([1.0, 1.0, 5.0, 5.0], shared)])))))]))
  {
    var kernels := other.(apply := Some(f), applyToBbox := Some(g));
    var row := [1.0, 1.0, 5.0, 5.0];
    assert Rectangular(Grid(4, [row]));
    var b := Construct(BoxesKind, NdArray(Matrix(Grid(4, [row]))), Some(Grid(0, [[]]))).value;
    var kw := [("image", Buffer([10, 10], cells)), ("bboxes", Annotations(b))];
    var shared := drawn["cols" := Int(10)]["rows" := Int(10)];
    var expected := [("image", f(Buffer([10, 10], cells), shared)),
                     ("bboxes", Annotations(b.(records := Matrix(Grid(4, [g(row, shared)])))))];
    assert !HasKey(kw, SelfArg) && !HasKey(kw, ParamsArg);
    PlainFiringCall(st, kernels, false, draw, drawn, kw);
    SharedDrawDispatch(RoutingOf(st), kernels, shared, kw, b, f, g, cells);
    assert Lookup(kw, "image") == Some(Buffer([10, 10], cells));
    assert UpdateParams(PlainProfile, drawn, kw) == Ok(shared);
    assert ApplyWithParams(RoutingOf(st), kernels, Some(drawn), kw) == Ok(Applied(Some(shared), expected));
  }

  lemma SingleRowMapped(g: (seq<real>, Params) -> seq<real>, row: seq<real>, w: nat, params: Params)
    requires |row| == w && |g(row, params)| == w
    ensures MapRows(Some(g), [row], w, params) == Ok([g(row, params)])
  {
    var rows: seq<seq<real>> := [row];
    assert rows[1..] == [];
    assert MapRows(Some(g), rows[1..], w, params) == Ok([]);
    var out := g(row, params);
    assert BroadcastRow(out, w) == out;
    assert MapRows(Some(g), rows, w, params) == Ok([BroadcastRow(out, w)] + []);
    assert [BroadcastRow(out, w)] + [] == [out];
  }

  lemma ImageItemDispatch(rt: Routing, kernels: Kernels, shared: Params, kw: Kwargs, f: (Value, Params) -> Value, img: Value)
    requires rt == Routing(Dual, PlainProfile, map[]) && kernels.apply == Some(f) && !img.Annotations?
    ensures DispatchOne(rt, kernels, shared, kw, "image", img) == (if img == Null then Ok(Null) else Ok(f(img, shared)))
  {
    assert Pick(kw, []) == Ok(map[]);
    assert shared + map[] == shared;
    assert CallArgs(shared, kw, []) == Ok(shared);
  }

  lemma BoxItemDispatch(rt: Routing, kernels: Kernels, shared: Params, kw: Kwargs, g: (seq<real>, Params) -> seq<real>, b: Batch)
    requires rt == Routing(Dual, PlainProfile, map[]) && kernels.applyToBbox == Some(g)
    requires b.records == Matrix(Grid(4, [[1.0, 1.0, 5.0, 5.0]])) && WellFormed(b)
    requires |g([1.0, 1.0, 5.0, 5.0], shared)| == 4
    ensures DispatchOne(rt, kernels, shared, kw, "bboxes", Annotations(b))
         == Ok(Annotations(b.(records := Matrix(Grid(4, [g([1.0, 1.0, 5.0, 5.0], shared)])))))
  {
    assert Pick(kw, []) == Ok(map[]);
    assert shared + map[] == shared;
    assert CallArgs(shared, kw, []) == Ok(shared);
    SingleRowMapped(g, [1.0, 1.0, 5.0, 5.0], 4, shared);
  }

  /** One step of the dispatch loop. */
  lemma DispatchEachStep(rt: Routing, kernels: Kernels, params: Params, all: Kwargs, rest: Kwargs, v: Value, tail: Kwargs)
    requires DataWellFormed(rest) && rest != []
    requires DispatchOne(rt, kernels, params, all, rest[0].0, rest[0].1) == Ok(v)
    requires DataWellFormed(rest[1..]) && DispatchEach(rt, kernels, params, all, rest[1..]) == Ok(tail)
    ensures DispatchEach(rt, kernels, params, all, rest) == Ok([(rest[0].0, v)] + tail)
  {
  }

  lemma SharedDrawDispatch(rt: Routing, kernels: Kernels, shared: Params, kw: Kwargs, b: Batch,
                           f: (Value, Params) -> Value, g: (seq<real>, Params) -> seq<real>, cells: seq<real>)
    requires rt == Routing(Dual, PlainProfile, map[])
    requires kernels.apply == Some(f) && kernels.applyToBbox == Some(g)
    requires b.records == Matrix(Grid(4, [[1.0, 1.0, 5.0, 5.0]])) && WellFormed(b)
    requires |g([1.0, 1.0, 5.0, 5.0], shared)| == 4
    requires kw == [("image", Buffer([10, 10], cells)), ("bboxes", Annotations(b))]
    ensures DispatchEach(rt, kernels, shared, kw, kw)
         == Ok([("image", f(Buffer([10, 10], cells), shared)),
                ("bboxes", Annotations(b.(records := Matrix(Grid(4, [g([1.0, 1.0, 5.0, 5.0], shared)])))))])
  {
    var img := f(Buffer([10, 10], cells), shared);
    var boxes := Annotations(b.(records := Matrix(Grid(4, [g([1.0, 1.0, 5.0, 5.0], shared)]))));
    ImageItemDispatch(rt, kernels, shared, kw, f, Buffer([10, 10], cells));
    BoxItemDispatch(rt, kernels, shared, kw, g, b);
    var rest: Kwargs := [("bboxes", Annotations(b))];
    var none: Kwargs := [];
    assert kw[1..] == rest && rest[1..] == none;
    var one: Kwargs := [("bboxes", boxes)];
    assert [("bboxes", boxes)] + none == one;
    DispatchEachStep(rt, kernels, shared, kw, rest, boxes, none);
    assert [("image", img)] + one == [("image", img), ("bboxes", boxes)];
    DispatchEachStep(rt, kernels, shared, kw, kw, img, one);
  }

  /** A fire whose `targets_as_params` names a key absent from the data fails
      with AssertionError, before anything is recorded or applied. */
  lemma MissingTargetParamFails(st: TransformState, kernels: Kernels, forceApply: bool, draw: real, drawn: Params,
                                kw: Kwargs, missing: string)
    requires DataWellFormed(kw) && !HasKey(kw, SelfArg)
    requires !st.replayMode && Fires(st, draw, forceApply)
    requires missing in st.profile.targetsAsParams && !HasKey(kw, missing)
    ensures Call(st, kernels, 0, forceApply, draw, drawn, kw) == Err(AssertionError)
  {
  }

  /** An item dispatched under the name "image" goes to `apply`, with the
      parameters merged with the key's dependencies. */
  lemma ImageDispatchUsesApply(rt: Routing, kernels: Kernels, params: Params, all: Kwargs, key: string, v: Value,
                               f: (Value, Params) -> Value)
    requires rt.kind in {ImageOnly, Dual, ReferenceBased}
    requires rt.kind == ReferenceBased ==> kernels.applyToGlobalLabel.Some?
    requires kernels.apply == Some(f) && TargetName(rt.aliases, key) == "image"
    requires v != Null && (v.Annotations? ==> WellFormed(v.batch))
    requires forall d :: d in DependenciesOf(rt, key) ==> HasKey(all, d)
    ensures CallArgs(params, all, DependenciesOf(rt, key)).Ok?
    ensures DispatchOne(rt, kernels, params, all, key, v) == Ok(f(v, CallArgs(params, all, DependenciesOf(rt, key)).value))
  {
  }

  /** An item dispatched under the name "mask" goes to `apply` as well, but
      with an existing interpolation forced to nearest-neighbour and every
      other argument unchanged. */
  lemma MaskDispatchUsesNearest(rt: Routing, kernels: Kernels, params: Params, all: Kwargs, key: string, v: Value,
                                f: (Value, Params) -> Value)
    requires rt.kind in {Dual, ReferenceBased}
    requires rt.kind == ReferenceBased ==> kernels.applyToGlobalLabel.Some?
    requires kernels.apply == Some(f) && TargetName(rt.aliases, key) == "mask"
    requires v != Null && (v.Annotations? ==> WellFormed(v.batch))
    requires forall d :: d in DependenciesOf(rt, key) ==> HasKey(all, d)
    ensures CallArgs(params, all, DependenciesOf(rt, key)).Ok?
    ensures
      var incoming := CallArgs(params, all, DependenciesOf(rt, key)).value;
      var q := MaskParams(incoming);
      && DispatchOne(rt, kernels, params, all, key, v) == Ok(f(v, q))
      && q.Keys == incoming.Keys
      && ("interpolation" in incoming ==> q["interpolation"] == Interp(Nearest))
      && (forall k :: k in incoming && k != "interpolation" ==> q[k] == incoming[k])
  {
  }

  /** An item dispatched under the name "global_label" goes to
      `apply_to_global_label` of a reference-based transform. */
  lemma LabelDispatchUsesLabelKernel(rt: Routing, kernels: Kernels, params: Params, all: Kwargs, key: string, v: Value,
                                     h: (Value, Params) -> Value)
    requires rt.kind == ReferenceBased && kernels.applyToGlobalLabel == Some(h)
    requires TargetName(rt.aliases, key) == "global_label"
    requires v != Null && (v.Annotations? ==> WellFormed(v.batch))
    requires forall d :: d in DependenciesOf(rt, key) ==> HasKey(all, d)
    ensures CallArgs(params, all, DependenciesOf(rt, key)).Ok?
    ensures DispatchOne(rt, kernels, params, all, key, v) == Ok(h(v, CallArgs(params, all, DependenciesOf(rt, key)).value))
  {
  }

  /** Two data lists with the same keys in the same order hold the same names. */
  lemma SameKeysSameNames(kw: Kwargs, other: Kwargs, name: string)
    requires Keys(kw) == Keys(other)
    ensures HasKey(kw, name) <==> HasKey(other, name)
  {
    if HasKey(kw, name) {
      var i :| 0 <= i < |kw| && kw[i].0 == name;
      assert Keys(kw)[i] == other[i].0;
    }
    if HasKey(other, name) {
      var i :| 0 <= i < |other| && other[i].0 == name;
      assert Keys(other)[i] == kw[i].0;
    }
  }
}

=== FILE: data.dfy ===
/** The values that travel through a transform call: the named data items
    (`**kwargs`), the parameter dictionaries, and the replay store. */
module Data {
  import opened Results
  import opened Batches

  /** The interpolation flags of OpenCV the model distinguishes; only
      `Nearest` is singled out by the dispatch code. */
  datatype Interpolation = Nearest | Linear | Cubic | Area | Lanczos4

  datatype Value =
    | Null                                          // Python None
    | Int(n: int)
    | Real(x: real)
    | Text(s: string)
    | Interp(mode: Interpolation)
    | Buffer(shape: seq<nat>, cells: seq<real>)      // a numpy image or mask
    | List(items: seq<Value>)                        // e.g. the `masks` list
    | Annotations(batch: Batch)                      // a bbox or keypoint batch
    | Dict(byName: map<string, Value>, byId: map<int, Value>)  // a dict with str and int keys

  /** A parameter dictionary. */
  type Params = map<string, Value>

  /** The named data of one call, in keyword order. */
  type Kwargs = seq<(string, Value)>

  function Keys(kw: Kwargs): (ks: seq<string>)
    ensures |ks| == |kw|
    ensures forall i :: 0 <= i < |kw| ==> ks[i] == kw[i].0
  {
    if kw == [] then [] else [kw[0].0] + Keys(kw[1..])
  }

  predicate HasKey(kw: Kwargs, key: string) {
    exists i :: 0 <= i < |kw| && kw[i].0 == key
  }

  /** `kwargs.get(key)`: the value under the first occurrence of `key`. */
  function Lookup(kw: Kwargs, key: string): (r: Option<Value>)
    ensures r.Some? <==> HasKey(kw, key)
    ensures r.Some? ==> exists i :: 0 <= i < |kw| && kw[i] == (key, r.value) && forall j :: 0 <= j < i ==> kw[j].0 != key
  {
    if kw == [] then None
    else if kw[0].0 == key then Some(kw[0].1)
    else
      var r := Lookup(kw[1..], key);
      assert HasKey(kw, key) <==> HasKey(kw[1..], key) by {
        if HasKey(kw[1..], key) {
          var i :| 0 <= i < |kw[1..]| && kw[1..][i].0 == key;
          assert kw[i + 1].0 == key;
        }
        if HasKey(kw, key) {
          var i :| 0 <= i < |kw| && kw[i].0 == key;
          assert kw[1..][i - 1].0 == key;
        }
      }
      if r.Some? then
        var i :| 0 <= i < |kw[1..]| && kw[1..][i] == (key, r.value) && forall j :: 0 <= j < i ==> kw[1..][j].0 != key;
        assert kw[i + 1] == (key, r.value);
        assert forall j :: 0 <= j < i + 1 ==> kw[j].0 != key by {
          forall j | 0 <= j < i + 1 ensures kw[j].0 != key {
            if j > 0 { assert kw[j] == kw[1..][j - 1]; }
          }
        }
        r
      else r
  }

  /** `kwargs[key] = v` for a key already present: the value is replaced in
      place and the order is kept. */
  function Put(kw: Kwargs, key: string, v: Value): (r: Kwargs)
    ensures Keys(r) == Keys(kw)
    ensures Lookup(r, key) == (if HasKey(kw, key) then Some(v) else None)
    ensures forall k :: k != key ==> Lookup(r, k) == Lookup(kw, k)
  {
    if kw == [] then []
    else if kw[0].0 == key then [(key, v)] + kw[1..]
    else [kw[0]] + Put(kw[1..], key, v)
  }
}

=== FILE: ranges.dfy ===
/** `to_tuple`: turns a scalar, a 2-sequence or None into a (low, high) pair. */
module Ranges {
  import opened Results

  /** The shapes of argument `to_tuple` distinguishes. */
  datatype RangeArg =
    | NoneArg                 // Python None
    | Number(v: real)         // an int or a float
    | Items(xs: seq<real>)    // any Sequence (list, tuple) of numbers
    | Unsupported             // anything else (a dict, a set, an object)

  type Pair = (real, real)

  /** The anchored pair: `low` and `v`, the smaller first. */
  function Anchored(low: real, v: real): Pair {
    if low < v then (low, v) else (v, low)
  }

  function Shift(pr: Pair, bias: Option<real>): Pair {
    match bias
    case None => pr
    case Some(b) => (b + pr.0, b + pr.1)
  }

  function ToTuple(param: RangeArg, low: Option<real>, bias: Option<real>): (r: Result<Option<Pair>>)
    // Errors: exactly the mutually exclusive anchors, a sequence of the wrong
    // length, or an argument that is neither a number nor a sequence.
    ensures r.Err? <==>
      || (low.Some? && bias.Some?)
      || (param.Items? && |param.xs| != 2)
      || param.Unsupported?
    ensures r.Err? ==> r.error == ValueError
    ensures r == Ok(None) <==> !(low.Some? && bias.Some?) && param.NoneArg?
    // Successful results: which pair comes back, before and after the bias.
    ensures r.Ok? && param.Number? && low.None? ==>
      r.value == Some(Shift((-param.v, param.v), bias))
    ensures r.Ok? && param.Number? && low.Some? ==>
      r.value == Some(Anchored(low.value, param.v))
    ensures r.Ok? && param.Items? ==> r.value == Some(Shift((param.xs[0], param.xs[1]), bias))
  {
    if low.Some? && bias.Some? then Err(ValueError)
    else
      match param
      case NoneArg => Ok(None)
      case Number(v) =>
        var pr := if low.None? then (-v, v) else Anchored(low.value, v);
        Ok(Some(Shift(pr, bias)))
      case Items(xs) =>
        if |xs| != 2 then Err(ValueError)
        else Ok(Some(Shift((xs[0], xs[1]), bias)))
      case Unsupported => Err(ValueError)
  }

  /** A pair given back to `to_tuple` as a 2-sequence comes back unchanged:
      the canonical form is a fixed point. */
  lemma ToTupleIdempotent(param: RangeArg, low: Option<real>, bias: Option<real>)
    requires ToTuple(param, low, bias).Ok? && ToTuple(param, low, bias).value.Some?
    ensures var pr := ToTuple(param, low, bias).value.value;
      ToTuple(Items([pr.0, pr.1]), None, None) == Ok(Some(pr))
  {
  }

  /** A scalar with an anchor always yields the ascending pair of the anchor
      and the scalar: ordered, and holding exactly those two values. */
  lemma AnchoredIsAscending(v: real, low: real)
    ensures ToTuple(Number(v), Some(low), None).Ok?
    ensures var pr := ToTuple(Number(v), Some(low), None).value.value;
      && pr.0 <= pr.1
      && multiset{pr.0, pr.1} == multiset{low, v}
  {
    var pr := Anchored(low, v);
    if low < v {
      assert pr == (low, v);
    } else {
      assert pr == (v, low);
      assert multiset{v, low} == multiset{low, v};
    }
  }

  /** A scalar without anchor is the interval centred on the bias (0 when
      absent) with half-width the scalar. */
  lemma ScalarIsCentredOnBias(v: real, bias: Option<real>)
    ensures ToTuple(Number(v), None, bias).Ok?
    ensures var pr := ToTuple(Number(v), None, bias).value.value;
      && pr.0 + pr.1 == 2.0 * bias.GetOr(0.0)
      && pr.1 - pr.0 == 2.0 * v
  {
  }

  /** The bias is applied after the pair is resolved: it shifts the unbiased
      result by the same amount at both ends, and never changes whether the
      call fails. */
  lemma BiasShiftsUnbiasedResult(param: RangeArg, b: real)
    ensures ToTuple(param, None, Some(b)).Ok? <==> ToTuple(param, None, None).Ok?
    ensures ToTuple(param, None, None).Ok? && ToTuple(param, None, None).value.Some? ==>
      var pr := ToTuple(param, None, None).value.value;
      ToTuple(param, None, Some(b)) == Ok(Some((b + pr.0, b + pr.1)))
  {
  }
}

=== FILE: results.dfy ===
/** Failure-compatible wrappers shared by every module of the model.
    The exceptions the Python source raises are named by their class. */
module Results {

  /** The Python exception classes the modelled code raises. */
  datatype Error =
    | TypeError
    | ValueError
    | KeyError
    | IndexError
    | AttributeError
    | AssertionError
    | NotImplementedError

  datatype Option<+T> = None | Some(value: T) {
    function GetOr(default: T): T {
      match this
      case Some(v) => v
      case None => default
    }
  }

  /** Either a value or the exception the source raises instead. */
  datatype Result<+T> = Ok(value: T) | Err(error: Error) {
    predicate IsFailure() {
      Err?
    }

    function PropagateFailure<U>(): Result<U>
      requires Err?
    {
      Err(error)
    }

    function Extract(): T
      requires Ok?
    {
      value
    }
  }
}

=== FILE: targets.dfy ===
/** The target tables of the transform classes and the per-target apply
    functions of `DualTransform`, `NoOp` and `ReferenceBasedTransform`. */
module Targets {
  import opened Results
  import opened Batches
  import opened Data

  /** The transform classes whose `targets` property the model knows. */
  datatype TransformKind = Basic | ImageOnly | Dual | NoOp | ReferenceBased

  /** The entries a target table can hold; `Identity` is the `lambda x, **p: x`
      fallback of `_get_target_function`. */
  datatype TargetFn =
    | Identity
    | Apply
    | ApplyToMask
    | ApplyToMasks
    | ApplyToBboxes
    | ApplyToKeypoints
    | ApplyToGlobalLabel

  /** The methods a concrete transform overrides; None means the class does not
      define it (the base raises NotImplementedError, or, for
      `apply_to_global_label`, the attribute does not exist). The kernels
      themselves (cv2/numpy code) are opaque. */
  datatype Kernels = Kernels(
    apply: Option<(Value, Params) -> Value>,
    applyToBbox: Option<(seq<real>, Params) -> seq<real>>,
    applyToKeypoint: Option<(seq<real>, Params) -> seq<real>>,
    applyToGlobalLabel: Option<(Value, Params) -> Value>,
    paramsDependentOnTargets: Option<Params -> Params>)

  const DualTable: map<string, TargetFn> :=
    map["image" := Apply, "mask" := ApplyToMask, "masks" := ApplyToMasks,
        "bboxes" := ApplyToBboxes, "keypoints" := ApplyToKeypoints]

  /** The `targets` property. `BasicTransform` leaves it abstract; the
      reference-based table reads `self.apply_to_global_label`, which fails
      when the concrete class does not define it. */
  function TargetTable(kind: TransformKind, kernels: Kernels): (r: Result<map<string, TargetFn>>)
    ensures r.Err? <==> kind == Basic || (kind == ReferenceBased && kernels.applyToGlobalLabel.None?)
    ensures r.Err? ==> r.error == (if kind == Basic then NotImplementedError else AttributeError)
    ensures r.Ok? && kind == ImageOnly ==> r.value.Keys == {"image"} && r.value["image"] == Apply
    ensures r.Ok? && (kind == Dual || kind == NoOp) ==>
      r.value.Keys == {"image", "mask", "masks", "bboxes", "keypoints"}
    ensures r.Ok? && kind == ReferenceBased ==>
      && r.value.Keys == {"global_label", "image", "mask", "bboxes", "keypoints"}
      && r.value["global_label"] == ApplyToGlobalLabel
    ensures r.Ok? ==> forall k :: k in r.value && k != "global_label" ==> r.value[k] == DualTable[k]
  {
    match kind
    case Basic => Err(NotImplementedError)
    case ImageOnly => Ok(map["image" := Apply])
    case Dual => Ok(DualTable)
    case NoOp => Ok(DualTable)
    case ReferenceBased =>
      if kernels.applyToGlobalLabel.None? then Err(AttributeError)
      else Ok(DualTable - {"masks"} + map["global_label" := ApplyToGlobalLabel])
  }

  /** The table name a data key is dispatched under: its alias if it has one. */
  function TargetName(aliases: map<string, string>, key: string): string {
    if key in aliases then aliases[key] else key
  }

  /** `_get_target_function`: the key is replaced by its alias when it has
      one (a single step, no chains), then looked up in the table; a key the
      table lacks gets the identity. */
  function Resolve(aliases: map<string, string>, kind: TransformKind, kernels: Kernels, key: string): (r: Result<TargetFn>)
    ensures r.Err? <==> TargetTable(kind, kernels).Err?
    ensures r.Err? ==> r.error == TargetTable(kind, kernels).error
    ensures r.Ok? ==>
      var table := TargetTable(kind, kernels).value;
      var name := TargetName(aliases, key);
      r.value == (if name in table then table[name] else Identity)
  {
    var name := TargetName(aliases, key);
    var table :- TargetTable(kind, kernels);
    Ok(if name in table then table[name] else Identity)
  }

  /** A key that is neither aliased nor in the table passes through: an
      unrecognised data key is tolerated, not an error. */
  lemma UnknownKeyResolvesToIdentity(aliases: map<string, string>, kind: TransformKind, kernels: Kernels, key: string)
    requires kind != Basic && (kind == ReferenceBased ==> kernels.applyToGlobalLabel.Some?)
    requires key !in aliases
    requires key !in {"image", "mask", "masks", "bboxes", "keypoints", "global_label"}
    ensures Resolve(aliases, kind, kernels, key) == Ok(Identity)
  {
  }

  /** An aliased key is dispatched exactly as the key it names. */
  lemma AliasResolvesAsTarget(aliases: map<string, string>, kind: TransformKind, kernels: Kernels, key: string)
    requires key in aliases
    ensures Resolve(aliases, kind, kernels, key) == Resolve(map[], kind, kernels, aliases[key])
  {
  }

  // ------------------------------------------------------------- apply hooks

  /** The parameters `apply_to_mask` hands to `apply`: an existing
      "interpolation" entry becomes nearest-neighbour; nothing is added. */
  function MaskParams(params: Params): (q: Params)
    ensures q.Keys == params.Keys
    ensures "interpolation" in params ==> q["interpolation"] == Interp(Nearest)
    ensures forall k :: k in params && k != "interpolation" ==> q[k] == params[k]
  {
    map k | k in params :: if k == "interpolation" then Interp(Nearest) else params[k]
  }

  /** `apply`, or NotImplementedError when the class does not override it. */
  function ApplyImage(kernels: Kernels, v: Value, params: Params): (r: Result<Value>)
    ensures r.Err? <==> kernels.apply.None?
    ensures r.Ok? ==> r.value == kernels.apply.value(v, params)
    ensures r.Err? ==> r.error == NotImplementedError
  {
    match kernels.apply
    case None => Err(NotImplementedError)
    case Some(f) => Ok(f(v, params))
  }

  /** `apply_to_mask`: `apply` with nearest-neighbour interpolation; NoOp
      returns the mask itself. */
  function ApplyMask(kind: TransformKind, kernels: Kernels, v: Value, params: Params): (r: Result<Value>)
    ensures kind == NoOp ==> r == Ok(v)
    ensures kind != NoOp ==> r == ApplyImage(kernels, v, MaskParams(params))
  {
    if kind == NoOp then Ok(v) else ApplyImage(kernels, v, MaskParams(params))
  }

  /** `[apply_to_mask(m) for m in masks]`, stopping at the first failure. */
  function MapMasks(kind: TransformKind, kernels: Kernels, ms: seq<Value>, params: Params): (r: Result<seq<Value>>)
    ensures r.Ok? ==> |r.value| == |ms|
    ensures r.Ok? ==> forall i :: 0 <= i < |ms| ==> ApplyMask(kind, kernels, ms[i], params) == Ok(r.value[i])
    ensures r.Err? <==> exists i :: 0 <= i < |ms| && ApplyMask(kind, kernels, ms[i], params).Err?
    // The only failure is a missing `apply`, raised at the first mask.
    ensures r.Err? ==> r.error == NotImplementedError
    ensures ms != [] && kind != NoOp && kernels.apply.None? ==> r == Err(NotImplementedError)
  {
    if ms == [] then Ok([])
    else
      var head :- ApplyMask(kind, kernels, ms[0], params);
      var tail := MapMasks(kind, kernels, ms[1..], params);
      // The first mask went through, so `apply` exists or nothing is called.
      assert tail.Ok?;
      var r := [head] + tail.value;
      assert forall i :: 1 <= i < |ms| ==> ms[i] == ms[1..][i - 1];
      Ok(r)
  }

  /** `apply_to_masks`: maps `apply_to_mask` over a list of masks. */
  function ApplyMasks(kind: TransformKind, kernels: Kernels, v: Value, params: Params): (r: Result<Value>)
    ensures v.List? && r.Ok? ==> r.value.List? && |r.value.items| == |v.items|
    ensures v.List? && r.Ok? ==> forall i :: 0 <= i < |v.items| ==>
      ApplyMask(kind, kernels, v.items[i], params) == Ok(r.value.items[i])
    ensures !v.List? ==> r == Err(TypeError)
    ensures v.List? && r.Err? ==> r.error == NotImplementedError
    ensures v.List? && v.items != [] && kind != NoOp && kernels.apply.None? ==> r == Err(NotImplementedError)
  {
    match v
    case List(ms) =>
      var out :- MapMasks(kind, kernels, ms, params);
      Ok(List(out))
    case _ => Err(TypeError)
  }

  /** The loop of `apply_to_bboxes` / `apply_to_keypoints` over the rows of a
      2-D array: each row is replaced by the kernel's result, which numpy
      broadcasts into the row (its length must be the row width or 1). */
  function MapRows(f: Option<(seq<real>, Params) -> seq<real>>, rows: seq<seq<real>>, w: nat, params: Params)
    : (r: Result<seq<seq<real>>>)
    requires forall i :: 0 <= i < |rows| ==> |rows[i]| == w
    ensures r.Ok? ==> |r.value| == |rows|
    ensures r.Ok? && rows != [] ==> f.Some?
    ensures r.Ok? && f.Some? ==> forall i :: 0 <= i < |rows| ==>
      var out := f.value(rows[i], params);
      (|out| == w || |out| == 1) && r.value[i] == BroadcastRow(out, w)
    ensures rows == [] ==> r == Ok([])
    ensures rows != [] && f.None? ==> r == Err(NotImplementedError)
    ensures r.Err? ==> r.error in {NotImplementedError, ValueError}
    // A present kernel fails only on a result numpy cannot broadcast into a row.
    ensures f.Some? && r.Err? ==> r.error == ValueError
    ensures r.Ok? <==> rows == [] || (f.Some? && forall i :: 0 <= i < |rows| ==>
      |f.value(rows[i], params)| == w || |f.value(rows[i], params)| == 1)
  {
    if rows == [] then Ok([])
    else if f.None? then Err(NotImplementedError)
    else
      var out := f.value(rows[0], params);
      if |out| != w && |out| != 1 then Err(ValueError)
      else
        var tail :- MapRows(f, rows[1..], w, params);
        assert forall i :: 1 <= i < |rows| ==> rows[i] == rows[1..][i - 1];
        Ok([BroadcastRow(out, w)] + tail)
  }

  /** `DualTransform.apply_to_bboxes` / `apply_to_keypoints` with `f` the
      per-row kernel: the rows are rewritten in place and the batch returned;
      the metadata and the class are untouched. NoOp returns its argument.
      A value without an `array` attribute raises AttributeError. */
  function ApplyRows(kind: TransformKind, f: Option<(seq<real>, Params) -> seq<real>>, v: Value, params: Params)
    : (r: Result<Value>)
    requires v.Annotations? ==> WellFormed(v.batch)
    ensures kind == NoOp ==> r == Ok(v)
    ensures kind != NoOp && !v.Annotations? ==> r == Err(AttributeError)
    ensures kind != NoOp && r.Ok? ==>
      && r.value.Annotations?
      && r.value.batch.kind == v.batch.kind
      && r.value.batch.targets == v.batch.targets
      && Shape(r.value.batch.records) == Shape(v.batch.records)
      && WellFormed(r.value.batch)
      && (Valid(v.batch) ==> Valid(r.value.batch))
    // A 2-D batch fails exactly as the row loop does: NotImplementedError
    // without a kernel on a non-empty batch, ValueError on a bad-width result.
    ensures kind != NoOp && v.Annotations? && v.batch.records.Matrix? ==>
      var g := v.batch.records.grid;
      && (r.Ok? <==> MapRows(f, g.rows, g.width, params).Ok?)
      && (r.Err? ==> r.error == MapRows(f, g.rows, g.width, params).error)
    // An array of another dimensionality is empty: no kernel runs.
    ensures kind != NoOp && v.Annotations? && v.batch.records.OtherDims? ==> r == Ok(v)
  {
    if kind == NoOp then Ok(v)
    else match v
      case Annotations(b) =>
        (match b.records
         case OtherDims(_) => Ok(v)
         case Matrix(g) =>
           var rows :- MapRows(f, g.rows, g.width, params);
           Ok(Annotations(b.(records := Matrix(Grid(g.width, rows))))))
      case _ => Err(AttributeError)
  }

  /** The per-row contract of the batch apply functions: every record is
      replaced by the kernel's image of that record, in order. */
  lemma ApplyRowsMapsEachRecord(kind: TransformKind, f: (seq<real>, Params) -> seq<real>, b: Batch, params: Params)
    requires kind != NoOp && WellFormed(b) && b.records.Matrix?
    requires forall i :: 0 <= i < |b.records.grid.rows| ==> |f(b.records.grid.rows[i], params)| == b.records.grid.width
    ensures ApplyRows(kind, Some(f), Annotations(b), params).Ok?
    ensures var c := ApplyRows(kind, Some(f), Annotations(b), params).value.batch;
      && c.targets == b.targets
      && |c.records.grid.rows| == |b.records.grid.rows|
      && forall i :: 0 <= i < |b.records.grid.rows| ==> c.records.grid.rows[i] == f(b.records.grid.rows[i], params)
  {
  }

  /** `apply_to_global_label` (present whenever the reference-based table
      could be built). */
  function ApplyLabel(kernels: Kernels, v: Value, params: Params): (r: Result<Value>)
    ensures kernels.applyToGlobalLabel.Some? ==> r == Ok(kernels.applyToGlobalLabel.value(v, params))
    ensures kernels.applyToGlobalLabel.None? ==> r == Err(AttributeError)
  {
    match kernels.applyToGlobalLabel
    case None => Err(AttributeError)
    case Some(f) => Ok(f(v, params))
  }

  /** Calls the resolved target function on one data item. */
  function Invoke(kind: TransformKind, kernels: Kernels, fn: TargetFn, v: Value, params: Params): (r: Result<Value>)
    requires v.Annotations? ==> WellFormed(v.batch)
    ensures fn == Identity ==> r == Ok(v)
    ensures fn == Apply ==> r == (if kind == NoOp then Ok(v) else ApplyImage(kernels, v, params))
    ensures fn == ApplyToMask ==> r == ApplyMask(kind, kernels, v, params)
    ensures fn == ApplyToMasks ==> r == ApplyMasks(kind, kernels, v, params)
    ensures fn == ApplyToBboxes ==> r == ApplyRows(kind, kernels.applyToBbox, v, params)
    ensures fn == ApplyToKeypoints ==> r == ApplyRows(kind, kernels.applyToKeypoint, v, params)
    ensures fn == ApplyToGlobalLabel ==> r == ApplyLabel(kernels, v, params)
  {
    match fn
    case Identity => Ok(v)
    case Apply => if kind == NoOp then Ok(v) else ApplyImage(kernels, v, params)
    case ApplyToMask => ApplyMask(kind, kernels, v, params)
    case ApplyToMasks => ApplyMasks(kind, kernels, v, params)
    case ApplyToBboxes => ApplyRows(kind, kernels.applyToBbox, v, params)
    case ApplyToKeypoints => ApplyRows(kind, kernels.applyToKeypoint, v, params)
    case ApplyToGlobalLabel => ApplyLabel(kernels, v, params)
  }

  /** NoOp hands back every target it can reach unchanged, whatever the
      parameters (a `masks` value must be a list, as the source iterates it). */
  lemma {:induction false} NoOpInvokeIsIdentity(kernels: Kernels, fn: TargetFn, v: Value, params: Params)
    requires v.Annotations? ==> WellFormed(v.batch)
    requires fn != ApplyToGlobalLabel
    requires fn == ApplyToMasks ==> v.List?
    ensures Invoke(NoOp, kernels, fn, v, params) == Ok(v)
  {
    if fn == ApplyToMasks {
      var r := ApplyMasks(NoOp, kernels, v, params);
      assert r.Ok? by {
        assert MapMasks(NoOp, kernels, v.items, params).Ok?;
      }
      assert r.value.items == v.items;
    }
  }
}

=== FILE: transforms.dfy ===
/** `BasicTransform`: the per-instance state, the call state machine (replay,
    fire decision, parameter gathering, recording) and `apply_with_params`. */
module Transforms {
  import opened Results
  import opened Batches
  import opened Data
  import opened Targets

  /** What a concrete subclass declares besides its kernels: the optional
      `interpolation`, `fill_value` and `mask_fill_value` attributes (None:
      the attribute does not exist), `targets_as_params` and
      `target_dependence`. */
  datatype Profile = Profile(
    interpolation: Option<Value>,
    fillValue: Option<Value>,
    maskFillValue: Option<Value>,
    targetsAsParams: seq<string>,
    targetDependence: map<string, seq<string>>)

  /** The base-class defaults: no attributes, no target-dependent parameters. */
  const PlainProfile := Profile(None, None, None, [], map[])

  /** The instance fields; `id` stands for `id(self)`. */
  datatype TransformState = TransformState(
    kind: TransformKind,
    profile: Profile,
    id: int,
    p: real,
    alwaysApply: bool,
    additionalTargets: map<string, string>,
    deterministic: bool,
    saveKey: string,
    params: Option<Params>,
    replayMode: bool,
    appliedInReplay: bool)

  /** The part of the state `apply_with_params` reads: the class (its target
      table and kernels' owner), the profile and the alias map. */
  datatype Routing = Routing(kind: TransformKind, profile: Profile, aliases: map<string, string>)

  function RoutingOf(st: TransformState): Routing {
    Routing(st.kind, st.profile, st.additionalTargets)
  }

  const DefaultSaveKey := "replay"
  const ReservedSaveKey := "params"

  /** `BasicTransform.__init__(always_apply, p)`. */
  function Init(kind: TransformKind, profile: Profile, id: int, alwaysApply: bool, p: real): (st: TransformState)
    ensures st.kind == kind && st.profile == profile && st.id == id
    ensures st.p == p && st.alwaysApply == alwaysApply
    ensures st.additionalTargets == map[]
    ensures !st.deterministic && st.saveKey == DefaultSaveKey
    ensures st.params == Some(map[])
    ensures !st.replayMode && !st.appliedInReplay
  {
    TransformState(kind, profile, id, p, alwaysApply, map[], false, DefaultSaveKey, Some(map[]), false, false)
  }

  /** `set_deterministic`: refuses the reserved key, otherwise sets the flag
      and the key and changes nothing else. */
  function SetDeterministic(st: TransformState, flag: bool, saveKey: string): (r: Result<TransformState>)
    ensures r.Err? <==> saveKey == ReservedSaveKey
    ensures r.Err? ==> r.error == AssertionError
    ensures r.Ok? ==> r.value.deterministic == flag && r.value.saveKey == saveKey
    ensures r.Ok? ==> r.value.(deterministic := st.deterministic, saveKey := st.saveKey) == st
  {
    if saveKey == ReservedSaveKey then Err(AssertionError)
    else Ok(st.(deterministic := flag, saveKey := saveKey))
  }

  /** `add_targets`: the alias map is replaced, not merged. */
  function AddTargets(st: TransformState, aliases: map<string, string>): (r: TransformState)
    ensures r.additionalTargets == aliases
    ensures r.(additionalTargets := st.additionalTargets) == st
  {
    st.(additionalTargets := aliases)
  }

  /** A second `add_targets` forgets the first: an alias registered only by
      the earlier call no longer redirects its key. */
  lemma AddTargetsReplaces(st: TransformState, kernels: Kernels, first: map<string, string>, second: map<string, string>, key: string)
    requires key in first && key !in second
    ensures AddTargets(AddTargets(st, first), second) == AddTargets(st, second)
    ensures Resolve(AddTargets(AddTargets(st, first), second).additionalTargets, st.kind, kernels, key)
         == Resolve(map[], st.kind, kernels, key)
  {
  }

  // ------------------------------------------------------------- parameters

  /** The value `kwargs["image"]` must have for `update_params`: an array with
      at least two dimensions. */
  predicate HasImageShape(kw: Kwargs) {
    var img := Lookup(kw, "image");
    img.Some? && img.value.Buffer? && |img.value.shape| >= 2
  }

  function WithAttr(params: Params, name: string, attr: Option<Value>): (q: Params)
    ensures attr.None? ==> q == params
    ensures attr.Some? ==> q == params[name := attr.value]
  {
    match attr
    case None => params
    case Some(v) => params[name := v]
  }

  /** The exception reading `kwargs["image"].shape[1]` raises. */
  function ImageError(kw: Kwargs): Error {
    if !HasKey(kw, "image") then KeyError
    else if !Lookup(kw, "image").value.Buffer? then AttributeError
    else IndexError
  }

  /** The names of the attributes the profile declares. */
  function DeclaredAttrs(profile: Profile): set<string> {
    (if profile.interpolation.Some? then {"interpolation"} else {})
    + (if profile.fillValue.Some? then {"fill_value"} else {})
    + (if profile.maskFillValue.Some? then {"mask_fill_value"} else {})
  }

  /** `update_params`: adds the declared attributes, then the column and row
      counts of `kwargs["image"]`. */
  function UpdateParams(profile: Profile, params: Params, kw: Kwargs): (r: Result<Params>)
    ensures r.Ok? <==> HasImageShape(kw)
    ensures r.Err? ==> r.error == ImageError(kw)
    ensures r.Ok? ==> r.value.Keys == params.Keys + {"rows", "cols"} + DeclaredAttrs(profile)
    ensures r.Ok? ==>
      var shape := Lookup(kw, "image").value.shape;
      && r.value["rows"] == Int(shape[0])
      && r.value["cols"] == Int(shape[1])
    ensures r.Ok? && profile.interpolation.Some? ==> r.value["interpolation"] == profile.interpolation.value
    ensures r.Ok? && profile.fillValue.Some? ==> r.value["fill_value"] == profile.fillValue.value
    ensures r.Ok? && profile.maskFillValue.Some? ==> r.value["mask_fill_value"] == profile.maskFillValue.value
    ensures r.Ok? ==> forall k :: k in params && k !in {"rows", "cols", "interpolation", "fill_value", "mask_fill_value"} ==>
      r.value[k] == params[k]
  {
    var q := WithAttr(params, "interpolation", profile.interpolation);
    var q := WithAttr(q, "fill_value", profile.fillValue);
    var q := WithAttr(q, "mask_fill_value", profile.maskFillValue);
    match Lookup(kw, "image")
    case None => Err(KeyError)
    case Some(img) =>
      if !img.Buffer? then Err(AttributeError)
      else if |img.shape| < 2 then Err(IndexError)
      else Ok(q["cols" := Int(img.shape[1])]["rows" := Int(img.shape[0])])
  }

  /** `{k: kwargs[k] for k in keys}`: KeyError when one is absent. */
  function Pick(kw: Kwargs, keys: seq<string>): (r: Result<Params>)
    ensures r.Ok? <==> forall k :: k in keys ==> HasKey(kw, k)
    ensures r.Err? ==> r.error == KeyError
    ensures r.Ok? ==> r.value.Keys == set k | k in keys
    ensures r.Ok? ==> forall k :: k in r.value ==> Some(r.value[k]) == Lookup(kw, k)
  {
    if forall k :: k in keys ==> HasKey(kw, k) then
      Ok(map k | k in keys :: Lookup(kw, k).value)
    else Err(KeyError)
  }

  /** `self.target_dependence.get(key, [])`. */
  function DependenciesOf(rt: Routing, key: string): seq<string> {
    if key in rt.profile.targetDependence then rt.profile.targetDependence[key] else []
  }

  /** Every data item the model can dispatch holds a well-formed batch if it
      holds a batch at all. */
  predicate DataWellFormed(kw: Kwargs) {
    forall i :: 0 <= i < |kw| ==> kw[i].1.Annotations? ==> WellFormed(kw[i].1.batch)
  }

  /** `dict(params, **target_dependencies)`, where the dependencies are
      `{k: kwargs[k] for k in deps}`: a missing dependency raises KeyError, and a
      dependency wins over a parameter of the same name. */
  function CallArgs(params: Params, all: Kwargs, deps: seq<string>): (r: Result<Params>)
    ensures r.Ok? <==> forall d :: d in deps ==> HasKey(all, d)
    ensures r.Err? ==> r.error == KeyError
    ensures r.Ok? ==> r.value.Keys == params.Keys + (set d | d in deps)
    ensures r.Ok? ==> forall d :: d in deps ==> Some(r.value[d]) == Lookup(all, d)
    ensures r.Ok? ==> forall k :: k in params && k !in deps ==> r.value[k] == params[k]
  {
    var given :- Pick(all, deps);
    Ok(params + given)
  }

  /** The body of the loop of `apply_with_params` for one key: None is kept;
      otherwise the target function is looked up first (the table may
      raise), then the dependencies are read (KeyError), then the function
      runs on the item with the merged arguments. */
  function DispatchOne(rt: Routing, kernels: Kernels, params: Params, all: Kwargs, key: string, arg: Value)
    : (r: Result<Value>)
    requires arg.Annotations? ==> WellFormed(arg.batch)
    ensures arg == Null ==> r == Ok(Null)
    ensures arg != Null && TargetTable(rt.kind, kernels).Err? ==> r == Err(TargetTable(rt.kind, kernels).error)
    ensures arg != Null && TargetTable(rt.kind, kernels).Ok? && CallArgs(params, all, DependenciesOf(rt, key)).Err? ==>
      r == Err(KeyError)
    ensures arg != Null && TargetTable(rt.kind, kernels).Ok? && CallArgs(params, all, DependenciesOf(rt, key)).Ok? ==>
      r == Invoke(rt.kind, kernels, Resolve(rt.aliases, rt.kind, kernels, key).value, arg,
                  CallArgs(params, all, DependenciesOf(rt, key)).value)
  {
    if arg == Null then Ok(Null)
    else
      var fn :- Resolve(rt.aliases, rt.kind, kernels, key);
      var args :- CallArgs(params, all, DependenciesOf(rt, key));
      Invoke(rt.kind, kernels, fn, arg, args)
  }

  /** Item i of `rest` is the first whose dispatch fails. */
  predicate FirstFailureAt(rt: Routing, kernels: Kernels, params: Params, all: Kwargs, rest: Kwargs, i: int)
    requires DataWellFormed(rest)
  {
    && 0 <= i < |rest|
    && DispatchOne(rt, kernels, params, all, rest[i].0, rest[i].1).Err?
    && forall j :: 0 <= j < i ==> DispatchOne(rt, kernels, params, all, rest[j].0, rest[j].1).Ok?
  }

  /** The loop of `apply_with_params` over `rest`, a suffix of the call's data
      `all`; the first failing key raises. */
  function DispatchEach(rt: Routing, kernels: Kernels, params: Params, all: Kwargs, rest: Kwargs)
    : (r: Result<Kwargs>)
    requires DataWellFormed(rest)
    ensures r.Ok? ==> Keys(r.value) == Keys(rest)
    ensures r.Ok? ==> forall i :: 0 <= i < |rest| ==>
      Ok(r.value[i].1) == DispatchOne(rt, kernels, params, all, rest[i].0, rest[i].1)
    ensures r.Err? <==> exists i :: 0 <= i < |rest| && DispatchOne(rt, kernels, params, all, rest[i].0, rest[i].1).Err?
    // The error raised is that of the first failing item in data order.
    ensures r.Err? ==> exists i :: (FirstFailureAt(rt, kernels, params, all, rest, i) &&
      r.error == DispatchOne(rt, kernels, params, all, rest[i].0, rest[i].1).error)
  {
    if rest == [] then Ok([])
    else
      var head := DispatchOne(rt, kernels, params, all, rest[0].0, rest[0].1);
      if head.Err? then
        assert FirstFailureAt(rt, kernels, params, all, rest, 0);
        Err(head.error)
      else
        assert DataWellFormed(rest[1..]) by {
          forall i | 0 <= i < |rest[1..]| ensures rest[1..][i] == rest[i + 1] { }
        }
        var tail := DispatchEach(rt, kernels, params, all, rest[1..]);
        if tail.Err? then
          var i :| 0 <= i < |rest[1..]| && DispatchOne(rt, kernels, params, all, rest[1..][i].0, rest[1..][i].1).Err?;
          assert rest[1..][i] == rest[i + 1];
          var k :| FirstFailureAt(rt, kernels, params, all, rest[1..], k) &&
            tail.error == DispatchOne(rt, kernels, params, all, rest[1..][k].0, rest[1..][k].1).error;
          FirstFailureShifts(rt, kernels, params, all, rest, k);
          Err(tail.error)
        else
          var out := [(rest[0].0, head.value)] + tail.value;
          assert forall i :: 1 <= i < |rest| ==> rest[i] == rest[1..][i - 1] && out[i] == tail.value[i - 1];
          assert Keys(out) == Keys(rest);
          Ok(out)
  }

  /** A first failure in the tail, after a head that succeeds, is the first
      failure of the whole sequence, one position later. */
  lemma FirstFailureShifts(rt: Routing, kernels: Kernels, params: Params, all: Kwargs, rest: Kwargs, k: int)
    requires DataWellFormed(rest) && rest != []
    requires DispatchOne(rt, kernels, params, all, rest[0].0, rest[0].1).Ok?
    requires DataWellFormed(rest[1..]) && FirstFailureAt(rt, kernels, params, all, rest[1..], k)
    ensures FirstFailureAt(rt, kernels, params, all, rest, k + 1)
    ensures rest[k + 1] == rest[1..][k]
  {
    forall j | 1 <= j < k + 1
      ensures DispatchOne(rt, kernels, params, all, rest[j].0, rest[j].1).Ok?
    {
      assert rest[j] == rest[1..][j - 1];
    }
  }

  /** The outcome of `apply_with_params`: the output data, and the parameter
      dictionary as `update_params` left it (it is updated in place). */
  datatype Applied = Applied(params: Option<Params>, out: Kwargs)

  /** `apply_with_params`. */
  function ApplyWithParams(rt: Routing, kernels: Kernels, params: Option<Params>, kw: Kwargs): (r: Result<Applied>)
    requires DataWellFormed(kw)
    ensures params.None? ==> r == Ok(Applied(None, kw))
    ensures params.Some? && !HasImageShape(kw) ==> r == Err(ImageError(kw))
    // With an image, a failure is that of the first failing item.
    ensures params.Some? && HasImageShape(kw) && r.Err? ==>
      var q := UpdateParams(rt.profile, params.value, kw).value;
      exists i :: (FirstFailureAt(rt, kernels, q, kw, kw, i) && r.error == DispatchOne(rt, kernels, q, kw, kw[i].0, kw[i].1).error)
    // The output holds exactly the input keys, in order; None stays None.
    ensures r.Ok? ==> Keys(r.value.out) == Keys(kw)
    ensures r.Ok? ==> forall i :: 0 <= i < |kw| && kw[i].1 == Null ==> r.value.out[i].1 == Null
    // Every item is dispatched with the same updated parameter dictionary.
    ensures r.Ok? && params.Some? ==>
      && HasImageShape(kw)
      && r.value.params == Some(UpdateParams(rt.profile, params.value, kw).value)
      && forall i :: 0 <= i < |kw| ==>
           Ok(r.value.out[i].1) == DispatchOne(rt, kernels, r.value.params.value, kw, kw[i].0, kw[i].1)
  {
    match params
    case None => Ok(Applied(None, kw))
    case Some(p) =>
      var q :- UpdateParams(rt.profile, p, kw);
      var out :- DispatchEach(rt, kernels, q, kw, kw);
      Ok(Applied(Some(q), out))
  }

  // ------------------------------------------------------------------ call

  /** The fire condition of `__call__` outside replay mode. */
  predicate Fires(st: TransformState, draw: real, forceApply: bool) {
    draw < st.p || st.alwaysApply || forceApply
  }

  /** `get_params()` (here the already-drawn `drawn`) merged with the
      target-dependent parameters, which win on a shared key. */
  function GatherParams(st: TransformState, kernels: Kernels, drawn: Params, kw: Kwargs): (r: Result<Params>)
    ensures |st.profile.targetsAsParams| == 0 ==> r == Ok(drawn)
    ensures |st.profile.targetsAsParams| > 0 ==>
      (r.Err? && r.error == AssertionError <==> exists k :: k in st.profile.targetsAsParams && !HasKey(kw, k))
    ensures r.Err? ==> r.error in {AssertionError, NotImplementedError}
    ensures r.Ok? <==> (|st.profile.targetsAsParams| == 0 ||
      ((forall k :: k in st.profile.targetsAsParams ==> HasKey(kw, k)) && kernels.paramsDependentOnTargets.Some?))
    ensures r.Ok? && |st.profile.targetsAsParams| > 0 ==>
      && kernels.paramsDependentOnTargets.Some?
      && Pick(kw, st.profile.targetsAsParams).Ok?
      && var dep := kernels.paramsDependentOnTargets.value(Pick(kw, st.profile.targetsAsParams).value);
         && r.value.Keys == drawn.Keys + dep.Keys
         && (forall k :: k in dep ==> r.value[k] == dep[k])
         && (forall k :: k in drawn && k !in dep ==> r.value[k] == drawn[k])
  {
    var names := st.profile.targetsAsParams;
    if |names| == 0 then Ok(drawn)
    else if exists k :: k in names && !HasKey(kw, k) then Err(AssertionError)
    else
      var given := Pick(kw, names).value;
      match kernels.paramsDependentOnTargets
      case None => Err(NotImplementedError)
      case Some(f) => Ok(drawn + f(given))
  }

  /** `store[id] = deepcopy(params)` on the value found under the save key.
      A dict takes the entry; a list takes it at an in-range position and
      otherwise raises IndexError; a numpy array raises IndexError for an
      out-of-range index and TypeError when a dict cannot become its cells;
      a batch's `__setitem__` reads `.array` of the dict (AttributeError);
      None, numbers and strings do not support item assignment. */
  function StoreInto(store: Value, id: int, params: Params): (r: Result<Value>)
    ensures r.Ok? <==> store.Dict? || (store.List? && InRange(id, |store.items|))
    ensures r.Ok? ==> !r.value.Annotations?
    ensures r.Err? && store.Annotations? ==> r.error == AttributeError
    ensures r.Err? && (store.List? || store.Buffer?) ==>
      r.error == (if store.Buffer? && |store.shape| > 0 && InRange(id, store.shape[0]) then TypeError else IndexError)
    ensures r.Err? && !store.Annotations? && !store.List? && !store.Buffer? ==> r.error == TypeError
    ensures store.Dict? ==>
      && r.value.Dict? && r.value.byName == store.byName
      && r.value.byId.Keys == store.byId.Keys + {id}
      && r.value.byId[id] == Dict(params, map[])
      && forall k :: k in store.byId && k != id ==> r.value.byId[k] == store.byId[k]
    ensures store.List? && r.Ok? ==>
      var k := Normalise(id, |store.items|);
      && r.value.List? && |r.value.items| == |store.items|
      && r.value.items[k] == Dict(params, map[])
      && forall j :: 0 <= j < |store.items| && j != k ==> r.value.items[j] == store.items[j]
  {
    match store
    case Dict(byName, byId) => Ok(Dict(byName, byId[id := Dict(params, map[])]))
    case List(items) =>
      if InRange(id, |items|) then Ok(List(items[Normalise(id, |items|) := Dict(params, map[])]))
      else Err(IndexError)
    case Buffer(shape, _) =>
      if |shape| == 0 || !InRange(id, shape[0]) then Err(IndexError) else Err(TypeError)
    case Annotations(_) => Err(AttributeError)
    case _ => Err(TypeError)
  }

  /** `kwargs[save_key][id(self)] = deepcopy(params)`: the store is a data
      item of the call; a missing one raises KeyError. */
  function Record(kw: Kwargs, saveKey: string, id: int, params: Params): (r: Result<Kwargs>)
    ensures Lookup(kw, saveKey).None? ==> r == Err(KeyError)
    ensures Lookup(kw, saveKey).Some? ==>
      var stored := StoreInto(Lookup(kw, saveKey).value, id, params);
      && (r.Ok? <==> stored.Ok?)
      && (r.Err? ==> r.error == stored.error)
      && (r.Ok? ==> Lookup(r.value, saveKey) == Some(stored.value))
    ensures r.Ok? ==> Keys(r.value) == Keys(kw)
    ensures r.Ok? ==> forall k :: k != saveKey ==> Lookup(r.value, k) == Lookup(kw, k)
    ensures r.Ok? && DataWellFormed(kw) ==> DataWellFormed(r.value)
  {
    match Lookup(kw, saveKey)
    case None => Err(KeyError)
    case Some(v) =>
      var stored :- StoreInto(v, id, params);
      PutKeepsDataWellFormed(kw, saveKey, stored);
      Ok(Put(kw, saveKey, stored))
  }

  lemma PutKeepsDataWellFormed(kw: Kwargs, key: string, v: Value)
    requires !v.Annotations?
    ensures DataWellFormed(kw) ==> DataWellFormed(Put(kw, key, v))
  {
    if DataWellFormed(kw) {
      var r := Put(kw, key, v);
      forall i | 0 <= i < |r| && r[i].1.Annotations?
        ensures WellFormed(r[i].1.batch)
      {
        PutPosition(kw, key, v, i);
      }
    }
  }

  lemma {:induction false} PutPosition(kw: Kwargs, key: string, v: Value, i: int)
    requires 0 <= i < |kw|
    ensures Put(kw, key, v)[i] == kw[i] || Put(kw, key, v)[i].1 == v
  {
    if kw[0].0 != key && i > 0 {
      PutPosition(kw[1..], key, v, i - 1);
    }
  }

  /** The result of `__call__`: the instance state afterwards and the output. */
  datatype Called = Called(state: TransformState, out: Kwargs)

  /** The keyword names of `__call__` and `apply_with_params` besides the
      data: a data item under one of these names clashes with the parameter
      and the call raises TypeError. */
  const SelfArg := "self"
  const ParamsArg := "params"

  /** `__call__(*args, force_apply, **kwargs)`. `positional` counts `args`;
      `draw` is the value of `random.random()`; `drawn` is what `get_params()`
      returns. */
  function Call(st: TransformState, kernels: Kernels, positional: nat, forceApply: bool, draw: real,
                drawn: Params, kw: Kwargs): (r: Result<Called>)
    requires DataWellFormed(kw)
    // Argument binding fails before the body runs.
    ensures HasKey(kw, SelfArg) ==> r == Err(TypeError)
    ensures !HasKey(kw, SelfArg) && positional > 0 ==> r == Err(KeyError)
    // Replay: a step not applied hands the data back; an applied one reruns
    // `apply_with_params` with `self.params`, which it updates in place.
    ensures !HasKey(kw, SelfArg) && positional == 0 && st.replayMode && !st.appliedInReplay ==> r == Ok(Called(st, kw))
    ensures !HasKey(kw, SelfArg) && positional == 0 && st.replayMode && st.appliedInReplay ==>
      if HasKey(kw, ParamsArg) then r == Err(TypeError)
      else
        var a := ApplyWithParams(RoutingOf(st), kernels, st.params, kw);
        && (a.Err? ==> r == Err(a.error))
        && (a.Ok? ==> r == Ok(Called(st.(params := a.value.params), a.value.out)))
    // No fire: the data come back unchanged.
    ensures !HasKey(kw, SelfArg) && positional == 0 && !st.replayMode && !Fires(st, draw, forceApply) ==>
      r == Ok(Called(st, kw))
    // A fire gathers the parameters (which may raise), records them when
    // deterministic (which may raise), then applies them to the data.
    ensures !HasKey(kw, SelfArg) && positional == 0 && !st.replayMode && Fires(st, draw, forceApply) ==>
      var merged := GatherParams(st, kernels, drawn, kw);
      if merged.Err? then r == Err(merged.error)
      else if st.deterministic && Record(kw, st.saveKey, st.id, merged.value).Err? then
        r == Err(Record(kw, st.saveKey, st.id, merged.value).error)
      else if HasKey(kw, ParamsArg) then r == Err(TypeError)
      else
        var data := if st.deterministic then Record(kw, st.saveKey, st.id, merged.value).value else kw;
        var a := ApplyWithParams(RoutingOf(st), kernels, Some(merged.value), data);
        && (a.Err? ==> r == Err(a.error))
        && (a.Ok? ==> r == Ok(Called(st, a.value.out)))
    // The output holds exactly the input keys, in order.
    ensures r.Ok? ==> Keys(r.value.out) == Keys(kw)
    // Only the replay branch changes the instance, and only its `params`;
    // `applied_in_replay` is never set.
    ensures r.Ok? ==> r.value.state == st.(params := r.value.state.params)
    ensures r.Ok? && r.value.state.params != st.params ==> st.replayMode && st.appliedInReplay
  {
    if HasKey(kw, SelfArg) then Err(TypeError)
    else if positional > 0 then Err(KeyError)
    else if st.replayMode then
      if !st.appliedInReplay then Ok(Called(st, kw))
      else if HasKey(kw, ParamsArg) then Err(TypeError)
      else
        var a :- ApplyWithParams(RoutingOf(st), kernels, st.params, kw);
        Ok(Called(st.(params := a.params), a.out))
    else if !Fires(st, draw, forceApply) then Ok(Called(st, kw))
    else
      var params :- GatherParams(st, kernels, drawn, kw);
      var data :- if st.deterministic then Record(kw, st.saveKey, st.id, params) else Ok(kw);
      if HasKey(kw, ParamsArg) then Err(TypeError)
      else
        var a :- ApplyWithParams(RoutingOf(st), kernels, Some(params), data);
        Ok(Called(st, a.out))
  }
}
